=== FILE: README.md ===
# Arena game mode, modelled in Dafny

The Arena is the free-for-all mode of a Godot first-person shooter.
Actors score a point for each kill during a round. The round lasts 300
seconds. When the clock runs out, the final result ("Victory!" or
"Defeat!") is shown for 5 seconds. Then the server ends the round, which
sends single-player games back to the main menu and multiplayer games
back to the lobby.

This project models the `Arena` class as pure functions over an
immutable `ArenaState`. The modules are:

- `Outcomes`: `Option`, `Result`, and the two faults the C# code can
  throw. A null node dereference is `NodeNotFound`. A missing dictionary
  key is `KeyNotFound`. `Handled` is what an engine callback leaves
  behind: its state, plus the exception it raised, if any.
- `CSharpInt`: the C# `int` semantics the class relies on. `Int32` is
  the type of a C# `int`. `nextId++` and `scores[killer]++` wrap around
  (`Inc32`). `/` and `%` truncate toward zero (`Quot`, `Rem`).
- `Decimal`: C# `"" + n` for integers, and a parser that reads it back.
- `Hud`: `TimeFormat`, the `m:s` clock text.
- `IdCounter`: the single counter behind `NextWorldId` and
  `NextItemName`.
- `ScoreBoard`: the `scores` dictionary, and `PlayerWon` both as written
  and as intended.
- `Actors`: actors, pausing, and the tombstone a dead actor leaves in
  the list.
- `State`: the arena's fields, the outbox of broadcasts and session
  requests, and the validity invariant.
- `RoundClock`: `_Process`, `Timer`, `SyncTime`, `PresentScore` and
  `RoundOver`.
- `Spawning`: spawn points, `SpawnActor`, `InitActor`, `SpawnItem`,
  `DeferredSpawnItem`, `SinglePlayerInit` and `MultiplayerInit`.
- `Events`: `HandleEvent` and `HandleActorDead`.
- `Objective`: `GetObjectiveText`.
- `Remote`: how a peer applies each broadcast, so that server and client
  effects can be compared.

Modelling choices:

- Time is whole milliseconds. `RoundDuration` is 300000 and
  `ScoreDuration` is 5000. A frame's `delta` is a natural number.
  `(int)roundTimeRemaining` is `Quot(remaining, 1000)`.
- `Session.IsServer()` and `Session.NetActive()` become a `Session`
  parameter.
- `Rpc(...)` calls and requests to `Session.session` are appended to the
  state's `effects`, in order. `Remote.Deliver` is what a peer does with
  each broadcast.
- `GetNode(path) as Actor` is a map from paths to positions in the actor
  list. A missing path, an out-of-range position, or a freed actor is the
  null the source then dereferences.
- `rand.Next(pool.Count)` is a caller-supplied index `pick`. The
  precondition `pick < |pool|` also requires the pool to be non-empty.
- The enumeration order of `scores` is a parameter `order` that lists
  every key exactly once.

Behaviour worth noting:

- `TimeFormat(65)` is `"1:5"`: seconds are not padded to two digits.
- Clients never set `roundTimerActive`. Only the server (and single
  player) runs the clock; clients follow `SyncTime`.
- In single player, the round ends only if `Session.IsServer()` is true
  there. `Session.cs` is not part of this model, so the session is left a
  free parameter.

## Model

| member | source | states |
|---|---|---|
| CSharpInt.Inc32 | Util/Arena.cs:148 | `nextId++` on a C# `int`: adds one below 2147483647 and wraps from 2147483647 to -2147483648; the result stays a 32-bit value |
| CSharpInt.Quot | Util/Arena.cs:107 | C# `/` by a positive divisor rounds toward zero: floor for non-negative dividends, ceiling for negative ones |
| CSharpInt.Rem | Util/Arena.cs:108 | C# `%` rebuilds the dividend with `Quot`, and the remainder takes the dividend's sign and stays below the divisor in size |
| CSharpInt.TruncationExamples | Util/Arena.cs:107-108 | -1 s gives 0 min and -1 s; -61 s gives -1 min and -1 s; 65 s gives 1 min and 5 s |
| Decimal.NatString | Util/Arena.cs:109 | the decimal text of a natural number is non-empty, all digits, and starts with '0' exactly when the number is 0 |
| Decimal.ParseNatString | Util/Arena.cs:109 | reading the decimal digits back gives the number |
| Decimal.IntString | Util/Arena.cs:102 | `"" + n` is non-empty and starts with '-' exactly when n is negative |
| Decimal.IntStringRoundTrip | Util/Arena.cs:102 | parsing `"" + n` gives back n |
| Decimal.IntStringInjective | Util/Arena.cs:153 | two integers print the same exactly when they are equal |
| Hud.ComponentText | Util/Arena.cs:109-116 | a minutes or seconds value below 1 prints as "00"; otherwise as digits with no leading zero that read back as the value |
| Hud.TimeFormat | Util/Arena.cs:106-118 | a non-positive time prints "00:00"; every result is two canonical components joined by one colon |
| Hud.TimeFormatRoundTrip | Util/Arena.cs:106-118 | for t >= 0, the clock text reads back as minutes t/60 and seconds t%60 |
| Hud.TimeFormatExamples | Util/Arena.cs:106-118 | 0 and -1 print "00:00"; 600 prints "10:00" |
| Hud.TimeFormatUnpaddedSeconds | Util/Arena.cs:113-117 | seconds are not zero-padded: 65 prints "1:5" and 299 prints "4:59" |
| IdCounter.Issued | Util/Arena.cs:146-156 | k draws of the counter give k values, the first being the counter's value |
| IdCounter.IssuedCountsUp | Util/Arena.cs:146-156 | with no wrap-around in range, the i-th draw is the start plus i |
| IdCounter.IssuedFromFirstIncreasing | Util/Arena.cs:16 | from the initial -2147483648, the first 2^32 draws strictly increase, so none repeats |
| IdCounter.ItemName | Util/Arena.cs:153 | an item name is "Item_" followed by the counter's text |
| IdCounter.ItemNameInjective | Util/Arena.cs:153 | two counter values give the same item name exactly when they are equal |
| ScoreBoard.Register | Util/Arena.cs:169 | `scores.Add(id, 0)` for a new id adds that key with 0 and keeps every other entry |
| ScoreBoard.CreditKill | Util/Arena.cs:246 | `scores[killer]++` adds one to the killer's count below 2147483647 and wraps 2147483647 to -2147483648; no other entry and no key changes |
| ScoreBoard.CreditsAccumulate | Util/Arena.cs:246 | n kills step the killer's count n times through the 32-bit values, so it gains exactly n while it stays at most 2147483647; every other score is left alone |
| ScoreBoard.RegisterThenCredit | Util/Arena.cs:246 | a newly registered actor credited with n kills has score n for n up to 2147483647, and -2147483648 after one more kill |
| ScoreBoard.LoopKeepsUnbeatenPlayer | Util/Arena.cs:80-85 | if no score beats the player's, the loop as written never moves `max` off the player |
| ScoreBoard.PlayerWonLoop | Util/Arena.cs:80-85 | the loop as written ends either on the player's id or on a SCORE, not a key. If it moved off the player, some score exceeded the player's. It faults only on a key missing from the dictionary. `LoopKeepsUnbeatenPlayer` is its unbeaten case |
| ScoreBoard.PlayerWon | Util/Arena.cs:78-90 | as written, a fault is always a missing key, and a reported defeat is always right: some score exceeds the player's. A reported win can be wrong, as `PlayerWonMisreportsVictory` shows; `PlayerWonThrows` shows the fault, and `PlayerWonWhenUnbeaten` the correct case |
| ScoreBoard.PlayerWonWhenUnbeaten | Util/Arena.cs:78-90 | as written, `PlayerWon` reports true, without a fault, when no score beats the player's |
| ScoreBoard.PlayerWonMisreportsVictory | Util/Arena.cs:82-83 | scores {1:0, 2:1} for player 1: actor 2 leads, yet `PlayerWon` as written reports true |
| ScoreBoard.PlayerWonThrows | Util/Arena.cs:82-83 | scores {1:0, 2:5, 3:0}: as written, `PlayerWon` looks up key 5 and faults with a missing key |
| ScoreBoard.LeaderLoop | Util/Arena.cs:80-85 | the corrected loop ends on a registered id whose score is at least every enumerated score, and moves only to a strictly higher score |
| ScoreBoard.PlayerWonIntended | Util/Arena.cs:78-90 | corrected: a win means no enumerated score exceeds the player's, and a defeat means some score does. `PlayerWonIntendedIsMaximum` states both directions over every key |
| ScoreBoard.PlayerWonIntendedIsMaximum | Util/Arena.cs:78-90 | corrected: the player won exactly when no score exceeds the player's |
| Actors.NewActor | Util/Arena.cs:322-336 | a spawned actor has the given brain, id and position, is live and unpaused, and is named "Player<id>" unless the id is 0 |
| Actors.Tombstone | Util/Arena.cs:235-236 | a dead actor keeps its id, brain, pause state and position, is renamed "Deadplayer<id>", and is freed |
| Actors.SetPause | Util/Arena.cs:250-256 | every actor ends with the requested pause state and nothing else about it changes |
| Actors.TogglePause | Util/Arena.cs:258-262 | every actor's pause state flips and nothing else about it changes |
| Actors.TogglePauseInvolution | Util/Arena.cs:258-262 | toggling twice restores the actor list |
| RoundClock.SyncTime | Util/Arena.cs:120-123 | only the remaining time changes, to the server's value |
| RoundClock.PresentScore | Util/Arena.cs:125-130 | the score is marked presented, every actor is paused with nothing else changed, and exactly one HUD menu request is sent |
| RoundClock.RoundOver | Util/Arena.cs:132-143 | the clock stops; single player asks to quit to the main menu, multiplayer asks for the lobby and then to clear the game; nothing else changes |
| RoundClock.PresentScoreIfDue | Util/Arena.cs:58-64 | the presentation step changes neither the remaining time, the accumulator nor the timer flag; set-up, items, id counter, scores, local player and the number of actors are kept, and the outbox only grows |
| RoundClock.EndRoundIfDue | Util/Arena.cs:65-71 | the round-end step changes neither the remaining time nor the accumulator; set-up, items, id counter, scores, local player and the number of actors are kept, and the outbox only grows |
| RoundClock.Timer | Util/Arena.cs:47-76 | remaining time minus accumulator drops by exactly `delta`; set-up, items, id counter, scores, local player and the number of actors are kept, and the outbox only grows |
| RoundClock.TimerAccumulates | Util/Arena.cs:48-50 | below one second in total, a tick only grows the accumulator |
| RoundClock.TimerFlushes | Util/Arena.cs:50-53 | from one second on, the remaining time drops by the whole accumulated amount and the accumulator resets to 0 |
| RoundClock.TimerPresentsScore | Util/Arena.cs:58-64 | the score becomes presented exactly when a flushing tick goes below 0 with the score not yet presented; then each actor is the same actor with `paused` set, otherwise the actors are unchanged |
| RoundClock.TimerEndsRound | Util/Arena.cs:65-71 | the clock stops exactly when the server's flushing tick goes below -5 s, and by then the score is presented |
| RoundClock.TimerClientSendsNoRpc | Util/Arena.cs:54-70 | a tick on an instance that is not the server broadcasts nothing |
| RoundClock.Process | Util/Arena.cs:41-45 | with the timer inactive a frame changes nothing; a frame never withdraws a sent effect |
| RoundClock.RunAfterRoundOver | Util/Arena.cs:41-45 | once the timer is inactive, any number of frames changes nothing |
| RoundClock.TimerSignals | Util/Arena.cs:54-71 | a tick adds to the threshold broadcasts exactly the score presentation when it is due on the server, then the round end when it is due |
| RoundClock.ProcessKeepsValid | Util/Arena.cs:41-71 | a frame keeps the arena's invariant: every actor's id has a score and the id counter is a 32-bit value |
| RoundClock.RunKeepsValid | Util/Arena.cs:41-71 | the invariant holds across any sequence of frames |
| RoundClock.ProcessKeepsClockInv | Util/Arena.cs:41-71 | on the server, a frame keeps the broadcasts in step with the clock: none, then the presentation, then presentation and round end |
| RoundClock.RunKeepsClockInv | Util/Arena.cs:41-71 | the same holds across any sequence of frames |
| RoundClock.ServerSignalsInOrder | Util/Arena.cs:41-71 | from a fresh round, the server broadcasts the presentation at most once, the round end at most once and only after it, and the round end exactly when its clock has stopped |
| RoundClock.ProcessKeepsOnCourse | Util/Arena.cs:41-71 | a frame keeps the clock on course (under a second accumulated; a negative time or a stopped clock means the score is presented), and a running frame takes exactly its delta off the time still to run |
| RoundClock.RunPresentsScore | Util/Arena.cs:41-64 | from a clock on course, frames covering the remaining time plus one second always present the score |
| RoundClock.ServerPresentsScoreOnce | Util/Arena.cs:41-71 | on the server, from a fresh round, frames covering the round plus one second broadcast the score presentation exactly once, possibly followed by the round end; `ServerEndsRoundOnce` gives the round end |
| RoundClock.ProcessKeepsEndOnCourse | Util/Arena.cs:41-71 | on the server, a frame keeps the clock on course to end the round (under a second accumulated; below -5 s remaining means stopped), and a running frame takes exactly its delta off the time still to run |
| RoundClock.RunEndsRound | Util/Arena.cs:41-71 | on the server, frames covering the remaining time, the 5 s score window and one more second always stop the clock |
| RoundClock.ServerEndsRoundOnce | Util/Arena.cs:41-71 | on the server, from a fresh round, frames covering the round, the score window and one more second broadcast the presentation exactly once and then the round end exactly once |
| Spawning.NextWorldId | Util/Arena.cs:146-150 | returns the counter's value and increments the counter, unchecked: +1 below int.MaxValue, wrapping to int.MinValue; the new value differs from the old and nothing else changes |
| Spawning.NextItemName | Util/Arena.cs:152-156 | returns "Item_" with the counter's value and increments the counter the same unchecked way, changing nothing else |
| Spawning.Allocate | Util/Arena.cs:146-156 | either allocator hands out the counter's current value and wraps the counter on by one |
| Spawning.AllocateAll | Util/Arena.cs:146-156 | a series of allocations gives one token per call |
| Spawning.AllocateAllDrawsIssued | Util/Arena.cs:146-156 | call i of any mix of the two allocators gets the i-th value the counter issues |
| Spawning.AllocationsDistinct | Util/Arena.cs:16 | from the initial value, the first 2^32 allocations of world ids and item names never repeat |
| Spawning.SpawnPoint | Util/Arena.cs:316-320 | a draw with an index inside the pool gives one of the pool's points |
| Spawning.SpawnPoints | Util/Arena.cs:338-342 | one drawn point per pick, each the pool's point at that index |
| Spawning.SpawnActor | Util/Arena.cs:322-336 | appends one new actor with the given brain and id at the drawn position, changing nothing else |
| Spawning.SpawnActorAddsLiveActor | Util/Arena.cs:322-336 | a spawn adds exactly one live actor, and keeps the roster valid when the id is registered |
| Spawning.InitActor | Util/Arena.cs:168-187 | registers the id with score 0 and spawns one actor; offline it keeps the brain and a Player1 becomes the local player, online the local player's id gets Player1 |
| Spawning.InitActorKeepsValid | Util/Arena.cs:168-187 | enrolling a new id keeps every actor registered with a score |
| Spawning.SpawnItem | Util/Arena.cs:285-301 | a networked client spawns nothing; otherwise one item of the type appears at the drawn point, named only on the server. The server names it `Item_<nextId>` and advances the counter by one unchecked increment; offline the counter does not move. The outbox is only appended to |
| Spawning.SpawnItemOffline | Util/Arena.cs:285-301 | offline and not the server, an item spawn consumes no id and broadcasts nothing, and the item keeps the default name |
| Spawning.DeferredSpawnItem | Util/Arena.cs:303-314 | appends exactly the named item at the given position, changing nothing else |
| Spawning.SpawnItemReplicates | Util/Arena.cs:295-300 | on the server, the item takes the next item name and exactly one broadcast carries its type, name and position |
| Spawning.Fresh | Util/Arena.cs:16-29 | a new arena is valid, empty, stopped, and its counter is -2147483648 |
| Spawning.StartClock | Util/Arena.cs:164-165 | the timer becomes active with 300 s remaining; nothing else changes |
| Spawning.InitNextActor | Util/Arena.cs:162-163 | enrols the actor under the counter's next value and advances the counter |
| Spawning.SinglePlayerInit | Util/Arena.cs:158-166 | set-up ends with the round timer running and the spawn pools unchanged |
| Spawning.TwoItemSpawns | Util/Arena.cs:159-160 | the health pack and then the ammo pack appear at their drawn points; the server names them from the next two counter values and broadcasts both in order; otherwise they use no id and send nothing |
| Spawning.SinglePlayerRoster | Util/Arena.cs:162-163 | the two enrolments give the player and an AI with consecutive ids, both scored 0, and make the player local |
| Spawning.SinglePlayerInitSetsUpRound | Util/Arena.cs:158-166 | with no network session: a health pack and an ammo pack at their drawn points, the player and the AI at theirs with consecutive ids, both scored 0, 300 s on a running clock, state valid. As server, the items take the first two counter values as names and both are broadcast, and the player's id comes two draws later; otherwise nothing is broadcast and the player takes the first value |
| Spawning.RegisterAll | Util/Arena.cs:193-196 | registering the peers adds exactly their ids, each with 0, and keeps every earlier entry |
| Spawning.RosterActors | Util/Arena.cs:193-196 | one actor per peer |
| Spawning.RosterActorsAt | Util/Arena.cs:193-196 | the i-th actor has the i-th peer's id, spawns at the i-th point, and has the brain `InitActor` gives it: with a network session active, the local player's id gets the local-player brain and every other id the remote brain |
| Spawning.InitRoster | Util/Arena.cs:193-196 | the roster loop registers every peer and appends their actors in order, leaving the local id alone |
| Spawning.InitRosterRegistersRoster | Util/Arena.cs:193-196 | after the loop the scores are the old ones plus the peers at 0, one actor per peer follows the old list in order, and validity is kept |
| Spawning.MultiplayerInit | Util/Arena.cs:189-204 | the local id becomes the self peer, the peers are enrolled, and the clock starts exactly when this is the server |
| Spawning.MultiplayerInitSetsUpRound | Util/Arena.cs:189-204 | online: `playerWorldId` is the self peer, exactly the peers are scored at 0, one actor per peer follows the old list with the peer's id, only the self peer is controlled as Player1, and the state stays valid |
| Spawning.InitRosterOnline | Util/Arena.cs:193-196 | with a network session active and no scores yet, the loop enrols exactly the peers at 0, each with its own actor in order, the local one alone with the Player1 brain, and keeps the roster valid |
| Events.Resolve | Util/Arena.cs:229-230 | a node lookup succeeds exactly when the path names a live listed actor; otherwise it faults on that path |
| Events.Respawn | Util/Arena.cs:235-237 | the dead actor is tombstoned in place and an actor with its brain and id is appended at the drawn point; scores are unchanged |
| Events.RespawnKeepsLiveCount | Util/Arena.cs:235-237 | a death of a live actor leaves as many live actors as before |
| Events.RespawnKeepsValid | Util/Arena.cs:235-237 | the respawn reuses a registered id, so the roster stays valid |
| Events.HandleActorDead | Util/Arena.cs:223-227 | null, empty or blank-first args change nothing and raise no fault |
| Events.HandleActorDeadSucceeds | Util/Arena.cs:222-248 | a death event completes without a fault exactly when the dead actor's path resolves and a named killer's path resolves to a registered id; an unresolved dead actor faults on its path and changes nothing |
| Events.HandleActorDeadRespawnsAndCredits | Util/Arena.cs:229-246 | once the dead actor resolves: tombstone, respawn and the same live count, even when the killer lookup then faults; without a fault the named killer gains exactly one point and nobody else anything; with a fault or no killer, no score changes |
| Events.HandleActorDeadKeepsValid | Util/Arena.cs:222-248 | from a valid roster, the state left behind is valid, faulted or not, and the only possible fault is a missing node |
| Events.HandleEvent | Util/Arena.cs:213-220 | other kinds change nothing; a pause toggles every actor without a fault; only the roster ever changes; only a well-formed death event can fault |
| Events.PauseTwiceRestores | Util/Arena.cs:217-219 | two pause events restore the state, with no fault |
| Events.HandleEventKeepsValid | Util/Arena.cs:213-220 | every event leaves the arena valid, faulted or not, and a fault is only ever a missing node |
| Objective.WholeSeconds | Util/Arena.cs:100 | `(int)` of the remaining time truncates toward zero: for non-negative time the whole seconds below it |
| Objective.ObjectiveText | Util/Arena.cs:92-104 | after the presentation: "Victory!", "Defeat!" or a fault exactly as `PlayerWon` reports; before it, the text exists exactly when the local player has a score |
| Objective.ObjectiveTextReadsBack | Util/Arena.cs:99-103 | before the presentation, the text is exactly "Arena", the formatted whole seconds and the player's score, one per line. Under a second left, including a negative time, the clock reads "00:00". With time left, the time reads back as the whole remaining minutes and seconds and the score reads back as the score |
| Objective.ObjectiveTextUnbeaten | Util/Arena.cs:95-96 | an unbeaten player sees "Victory!" |
| Objective.IntendedObjectiveText | Util/Arena.cs:92-104 | with the corrected winner test: a missing local player faults, and before the presentation the text is the same as written |
| Objective.IntendedObjectiveTextIsMaximum | Util/Arena.cs:95-96 | corrected: "Victory!" exactly when no score exceeds the player's, "Defeat!" exactly when one does |
| Remote.Deliver | Util/Arena.cs:120-143 | a peer's handling of each broadcast sets the time, presents the score, stops the clock, or appends the named item; scores, ids and set-up are kept |
| Remote.SyncTimeMirrorsServer | Util/Arena.cs:54-56 | a server tick's first broadcast carries the new remaining time, and a peer that receives it holds the server's time |
| Remote.DeliverKeepsValid | Util/Arena.cs:120-143 | a received broadcast keeps the peer's invariant |
| Remote.DeferredSpawnMirrorsServer | Util/Arena.cs:299 | the item broadcast makes a peer append the same item the server added |
| Remote.PresentThenEndSettlesPeer | Util/Arena.cs:125-143 | a peer that receives the presentation and then the round end has its score presented, its clock stopped and every actor paused |

## Left out

- `InitTerrain`, `InitSpawnPoints` and `ArenaFactory`: they load scenes and read node groups from the engine. The two spawn pools are part of `Setup` instead.
- `Init`: its two branches are `SinglePlayerInit` and `MultiplayerInit` after the two engine loads. Its resetting of `actors` and `scores` is `Spawning.Fresh`.
- An empty spawn pool: `rand.Next(0)` returns 0 and indexing the empty list throws. The picks' preconditions exclude this case rather than model the exception.
- Floating point: `delta`, `roundTimeRemaining` and `secondCounter` are whole milliseconds, so rounding of `float` addition is not modelled.
- Positions are opaque `real` triples. The `float` conversions of `x`, `y` and `z` in the item broadcast are exact here.
- Delivery, ordering and loss of remote calls. `Remote.Deliver` only says what a peer does with a call it receives.
- `Session.cs`, `Actor`, `Item` and `NetworkSession` are not part of this model. Their calls are parameters or entries of the outbox. `netSes.playerData` is the peer list `peers`, which is assumed to hold distinct ids.
- `GD.Print` in `HandleActorDead` is not modelled.
- `Actor.TogglePause` and `IsPaused` are read as flipping and reading one `paused` flag.
- `QueueFree` is modelled as marking the actor freed at once. In Godot the node goes at the end of the frame, but it is renamed first, so its old path no longer resolves.
- `scores.Add` on an id already present throws `ArgumentException`. `ScoreBoard.Register`, `Spawning.InitActor`, `Spawning.RegisterAll` and the init functions require new ids rather than modelling that exception.
- Spawning.SinglePlayerInit: its own contract states only the running timer and the unchanged pools. `SinglePlayerInitSetsUpRound` states the full outcome for both values of `IsServer()`, but only with no network session active. Single player is assumed never to run with `NetActive()` true; `Session.cs`, which decides this, is not part of this model.
- `Actor.ActorFactory` is not part of this model. `NewActor` assumes a freshly made actor is unpaused and live.
- `SetPause` and `TogglePause` also visit the tombstoned entries that stay in `actors` after `QueueFree`, exactly as the source's loops do. The model treats this as safe, which holds only if `IsPaused()` and `TogglePause()` touch no engine state of a freed node.
- Spawning.RosterActors: its contract gives only the length. `RosterActorsAt` states the content of each actor.
- Hud.TimeFormat: its contract gives only the shape of the text, plus "00:00" for non-positive times. `TimeFormatRoundTrip` gives the values for t >= 0.
- `Util.cs` and `Menus/MainMenu.cs` are not part of this model. They hold vector helpers and the menu that creates the arena.

## Findings

| source | as written | input that shows it | evidently intended | confidence | as-written member | corrected member |
|---|---|---|---|---|---|---|
| Util/Arena.cs:82-83 | `max = score` stores a score where an id is expected, and `scores[max]` then looks that score up as a key | scores {1:0, 2:1}, player 1: `max` becomes 1, the player's own id, so "Victory!" is shown although actor 2 leads. Scores {1:0, 2:5, 3:0}: `scores[5]` throws `KeyNotFound` | `max = key.Key`, so that the player wins exactly when no score exceeds theirs | high, not executed | ScoreBoard.PlayerWonMisreportsVictory | ScoreBoard.PlayerWonIntendedIsMaximum |

=== FILE: actors.dfy ===
/**
  The arena's `actors` list and the per-actor operations the arena performs
  on it: spawning, tombstoning on death, and pausing.
 */
module Actors {
  import opened Outcomes
  import opened Decimal

  /** `Actor.Brains`: what controls an actor. */
  datatype Brain = Player1 | Ai | Remote

  /** A spawn point's global position; the model never computes with it. */
  datatype Position = Position(x: real, y: real, z: real)

  /**
    One entry of `actors`. `name` is the node name the arena assigned (None:
    the engine's default name); `freed` records that `QueueFree` was called,
    which does not remove the entry from the list.
   */
  datatype Actor = Actor(worldId: int, brain: Brain, paused: bool, name: Option<string>, pos: Position, freed: bool)

  /** `"Player" + id`, the name a spawned actor with a non-zero id is given. */
  function PlayerName(id: int): string {
    "Player" + IntString(id)
  }

  /** `"Deadplayer" + id`, the name a dead actor's node is given. */
  function TombstoneName(id: int): string {
    "Deadplayer" + IntString(id)
  }

  /** The actor `SpawnActor(brain, id)` creates at `pos`: a fresh, unpaused actor. */
  function NewActor(brain: Brain, id: int, pos: Position): (a: Actor)
    ensures a.worldId == id && a.brain == brain && a.pos == pos
    ensures !a.paused && !a.freed
    ensures id != 0 ==> a.name == Some(PlayerName(id))
    ensures id == 0 ==> a.name.None?
  {
    Actor(id, brain, false, if id != 0 then Some(PlayerName(id)) else None, pos, false)
  }

  /** The dead actor after `actorNode.Name = "Deadplayer" + id; actor.QueueFree()`. */
  function Tombstone(a: Actor): (t: Actor)
    ensures t.worldId == a.worldId && t.brain == a.brain && t.paused == a.paused && t.pos == a.pos
    ensures t.name == Some(TombstoneName(a.worldId)) && t.freed
  {
    a.(name := Some(TombstoneName(a.worldId)), freed := true)
  }

  /** `Actor.TogglePause()` on one actor. */
  function Toggle(a: Actor): Actor {
    a.(paused := !a.paused)
  }

  /** `SetPause(val)`: toggles exactly the actors whose paused flag differs from `val`. */
  function SetPause(actors: seq<Actor>, val: bool): (r: seq<Actor>)
    ensures |r| == |actors|
    ensures forall i :: 0 <= i < |r| ==> r[i] == actors[i].(paused := val)
    decreases |actors|
  {
    if |actors| == 0 then []
    else [if actors[0].paused != val then Toggle(actors[0]) else actors[0]] + SetPause(actors[1..], val)
  }

  /** `TogglePause()`: flips every actor's own paused flag; there is no global flag. */
  function TogglePause(actors: seq<Actor>): (r: seq<Actor>)
    ensures |r| == |actors|
    ensures forall i :: 0 <= i < |r| ==> r[i].paused == !actors[i].paused
    ensures forall i :: 0 <= i < |r| ==> r[i].(paused := actors[i].paused) == actors[i]
    decreases |actors|
  {
    if |actors| == 0 then [] else [Toggle(actors[0])] + TogglePause(actors[1..])
  }

  /** Toggling twice restores every actor. */
  lemma TogglePauseInvolution(actors: seq<Actor>)
    ensures TogglePause(TogglePause(actors)) == actors
  {
    var r := TogglePause(TogglePause(actors));
    assert forall i :: 0 <= i < |r| ==> r[i] == actors[i];
  }

  /** Actors whose node has not been freed. */
  function LiveCount(actors: seq<Actor>): (n: nat)
    ensures n <= |actors|
    decreases |actors|
  {
    if |actors| == 0 then 0 else (if actors[0].freed then 0 else 1) + LiveCount(actors[1..])
  }

  /** Replacing one entry changes the live count by the change in that entry alone. */
  lemma {:induction false} LiveCountUpdate(actors: seq<Actor>, i: nat, a: Actor)
    requires i < |actors|
    ensures LiveCount(actors[i := a]) + (if actors[i].freed then 0 else 1)
         == LiveCount(actors) + (if a.freed then 0 else 1)
    decreases |actors|
  {
    if i > 0 {
      assert actors[i := a][1..] == actors[1..][i - 1 := a];
      LiveCountUpdate(actors[1..], i - 1, a);
    }
  }

  lemma {:induction false} LiveCountAppend(actors: seq<Actor>, a: Actor)
    ensures LiveCount(actors + [a]) == LiveCount(actors) + (if a.freed then 0 else 1)
    decreases |actors|
  {
    if |actors| > 0 {
      assert (actors + [a])[1..] == actors[1..] + [a];
      LiveCountAppend(actors[1..], a);
    }
  }
}

=== FILE: csharp_int.dfy ===
/**
  C#'s 32-bit `int`: its range, its unchecked `++`, and its `/` and `%`,
  which truncate toward zero (Dafny's own operators are Euclidean).
 */
module CSharpInt {

  const MinInt32: int := -0x8000_0000
  const MaxInt32: int := 0x7fff_ffff

  predicate IsInt32(x: int) {
    MinInt32 <= x <= MaxInt32
  }

  /** A value of C#'s `int` type. */
  type Int32 = x: int | IsInt32(x)

  /** `x++` in an unchecked context: wraps from int.MaxValue to int.MinValue. */
  function Inc32(x: int): (r: int)
    requires IsInt32(x)
    ensures IsInt32(r)
    ensures x < MaxInt32 ==> r == x + 1
    ensures x == MaxInt32 ==> r == MinInt32
  {
    if x == MaxInt32 then MinInt32 else x + 1
  }

  /** `a / b` for a positive divisor: the quotient rounded toward zero. */
  function Quot(a: int, b: int): (q: int)
    requires b > 0
    ensures a >= 0 ==> 0 <= q && q * b <= a < q * b + b
    ensures a < 0 ==> q <= 0 && q * b - b < a <= q * b
  {
    if a >= 0 then
      DivBounds(a, b);
      a / b
    else
      DivBounds(-a, b);
      assert (-((-a) / b)) * b == -(((-a) / b) * b);
      -((-a) / b)
  }

  /** Euclidean division of a non-negative dividend brackets it between
      consecutive multiples of the divisor. */
  lemma DivBounds(a: int, b: int)
    requires a >= 0 && b > 0
    ensures 0 <= a / b && (a / b) * b <= a < (a / b) * b + b
  {
  }

  /** `a % b` for a positive divisor: the remainder takes the sign of `a`. */
  function Rem(a: int, b: int): (r: int)
    requires b > 0
    ensures a == Quot(a, b) * b + r
    ensures a >= 0 ==> 0 <= r < b
    ensures a < 0 ==> -b < r <= 0
  {
    a - Quot(a, b) * b
  }

  /** The C# operators agree with the Euclidean ones on non-negative operands
      and differ on negative ones: `-1 / 60 == 0` and `-1 % 60 == -1`. */
  lemma TruncationExamples()
    ensures Quot(-1, 60) == 0 && Rem(-1, 60) == -1
    ensures Quot(-61, 60) == -1 && Rem(-61, 60) == -1
    ensures Quot(65, 60) == 1 && Rem(65, 60) == 5
  {
  }
}

=== FILE: decimal.dfy ===
/**
  Decimal text of integers, as C# produces it for `"" + n` on an `int`,
  together with the parser that reads it back.
 */
module Decimal {
  import opened Outcomes

  predicate IsDigit(c: char) {
    '0' <= c <= '9'
  }

  predicate AllDigits(s: string) {
    forall i :: 0 <= i < |s| ==> IsDigit(s[i])
  }

  function DigitValue(c: char): (d: nat)
    requires IsDigit(c)
    ensures d < 10
  {
    c as int - '0' as int
  }

  function DigitChar(d: nat): (c: char)
    requires d < 10
    ensures IsDigit(c) && DigitValue(c) == d
  {
    ('0' as int + d) as char
  }

  /** The decimal text of a non-negative number: digits only, and no leading zero. */
  function NatString(n: nat): (s: string)
    ensures |s| > 0 && AllDigits(s)
    ensures s[0] == '0' <==> n == 0
    decreases n
  {
    if n < 10 then [DigitChar(n)] else NatString(n / 10) + [DigitChar(n % 10)]
  }

  /** The value of a string of decimal digits; the empty string reads as 0. */
  function ParseDigits(s: string): nat
    requires AllDigits(s)
    decreases |s|
  {
    if |s| == 0 then 0 else ParseDigits(s[..|s| - 1]) * 10 + DigitValue(s[|s| - 1])
  }

  lemma {:induction false} ParseNatString(n: nat)
    ensures ParseDigits(NatString(n)) == n
    decreases n
  {
    if n >= 10 {
      var front := NatString(n / 10);
      var s := front + [DigitChar(n % 10)];
      assert s[..|s| - 1] == front;
      ParseNatString(n / 10);
    }
  }

  /** The decimal text of any `int`: a '-' sign before the digits of a negative number. */
  function IntString(n: int): (s: string)
    ensures |s| > 0
    ensures s[0] == '-' <==> n < 0
  {
    if n < 0 then "-" + NatString(-n) else NatString(n)
  }

  /** Reads back an optional '-' followed by one or more digits. */
  function ParseInt(s: string): Option<int> {
    if |s| > 1 && s[0] == '-' && AllDigits(s[1..]) then
      var magnitude: int := ParseDigits(s[1..]);
      Some(-magnitude)
    else if |s| > 0 && AllDigits(s) then
      var value: int := ParseDigits(s);
      Some(value)
    else None
  }

  lemma IntStringRoundTrip(n: int)
    ensures ParseInt(IntString(n)) == Some(n)
  {
    var s := IntString(n);
    if n < 0 {
      assert s[1..] == NatString(-n);
      ParseNatString(-n);
    } else {
      ParseNatString(n);
    }
  }

  lemma IntStringInjective(a: int, b: int)
    ensures IntString(a) == IntString(b) <==> a == b
  {
    IntStringRoundTrip(a);
    IntStringRoundTrip(b);
  }
}

=== FILE: events.dfy ===
/**
  Session events: `HandleEvent` and `HandleActorDead`.

  `GetNode(path) as Actor` is modelled by `nodes`, the scene tree's paths
  mapped to positions in the actor list. A path that is missing, or names
  a node already freed, gives a null actor; the source dereferences it at
  once, which here is the `NodeNotFound` fault.
 */
module Events {
  import opened Outcomes
  import opened CSharpInt
  import opened ScoreBoard
  import opened Actors
  import opened State
  import opened Spawning

  /** `SessionEvent.Types`; kinds other than these two are ignored. */
  datatype EventKind = ActorDied | Pause | OtherEvent

  /** A session event; `args` None is a null array. */
  datatype SessionEvent = SessionEvent(kind: EventKind, args: Option<seq<string>>)

  /** The args name a dead actor: not null, not empty, first entry not "". */
  predicate NamesDeadActor(args: Option<seq<string>>) {
    args.Some? && |args.value| > 0 && args.value[0] != ""
  }

  /** The args also name a killer: a second entry that is not "". */
  predicate NamesKiller(args: Option<seq<string>>) {
    NamesDeadActor(args) && |args.value| >= 2 && args.value[1] != ""
  }

  /** `GetNode(path) as Actor` finds a live actor of the list. */
  predicate Resolves(ro: Roster, nodes: map<string, nat>, path: string) {
    path in nodes && nodes[path] < |ro.actors| && !ro.actors[nodes[path]].freed
  }

  /** `GetNode(path) as Actor`: the actor's position in `actors`, or the
      null dereference that follows when there is none. */
  function Resolve(ro: Roster, nodes: map<string, nat>, path: string): (r: Result<nat>)
    ensures r.Ok? <==> Resolves(ro, nodes, path)
    ensures r.Ok? ==> r.value == nodes[path]
    ensures r.Err? ==> r.fault == NodeNotFound(path)
  {
    if Resolves(ro, nodes, path) then Ok(nodes[path])
    else Err(NodeNotFound(path))
  }

  /**
    The respawn step of `HandleActorDead`: the dead actor's node is renamed
    "Deadplayer<id>" and freed, its entry staying in the list, and an actor
    with the same brain and id spawns at `pos`.
   */
  function Respawn(ro: Roster, i: nat, pos: Position): (r: Roster)
    requires i < |ro.actors|
    ensures |r.actors| == |ro.actors| + 1
    ensures r.actors[i] == Tombstone(ro.actors[i])
    ensures forall j :: 0 <= j < |ro.actors| && j != i ==> r.actors[j] == ro.actors[j]
    ensures r.actors[|ro.actors|] == NewActor(ro.actors[i].brain, ro.actors[i].worldId, pos)
    ensures r.scores == ro.scores && r.playerWorldId == ro.playerWorldId
  {
    var dead := ro.actors[i];
    SpawnActor(ro.(actors := ro.actors[i := Tombstone(dead)]), dead.brain, dead.worldId, pos)
  }

  /** A death of a live actor leaves as many live actors as before. */
  lemma RespawnKeepsLiveCount(ro: Roster, i: nat, pos: Position)
    requires i < |ro.actors| && !ro.actors[i].freed
    ensures LiveCount(Respawn(ro, i, pos).actors) == LiveCount(ro.actors)
  {
    var dead := ro.actors[i];
    var tombstoned := ro.actors[i := Tombstone(dead)];
    LiveCountUpdate(ro.actors, i, Tombstone(dead));
    LiveCountAppend(tombstoned, NewActor(dead.brain, dead.worldId, pos));
  }

  /** The respawned actor reuses a registered id, so the roster stays valid. */
  lemma RespawnKeepsValid(ro: Roster, i: nat, pos: Position)
    requires i < |ro.actors| && RosterValid(ro)
    ensures RosterValid(Respawn(ro, i, pos))
  {
    var r := Respawn(ro, i, pos);
    forall j | 0 <= j < |r.actors|
      ensures r.actors[j].worldId in r.scores
    {
      if j < |ro.actors| && j != i {
        assert r.actors[j] == ro.actors[j];
      }
    }
  }

  /**
    `HandleActorDead(event)`: malformed args change nothing. A dead actor
    path that does not resolve throws before anything changes. Otherwise the
    dead actor is tombstoned and respawned at `pos`, and a named killer's
    score is incremented; a killer lookup that throws leaves the respawn in
    place. The killer is looked up in the same scene tree snapshot: the
    replacement takes the dead actor's node name, so a killer path naming
    the dead actor itself is credited under the same world id.
   */
  function HandleActorDead(ro: Roster, args: Option<seq<string>>, nodes: map<string, nat>, pos: Position): (r: Handled<Roster>)
    ensures !NamesDeadActor(args) ==> r == Handled(ro, None)
  {
    if !NamesDeadActor(args) then Handled(ro, None)
    else match Resolve(ro, nodes, args.value[0])
      case Err(f) => Handled(ro, Some(f))
      case Ok(i) =>
        var respawned := Respawn(ro, i, pos);
        if !NamesKiller(args) then Handled(respawned, None)
        else match Resolve(ro, nodes, args.value[1])
          case Err(f) => Handled(respawned, Some(f))
          case Ok(k) =>
            var killer := ro.actors[k].worldId;
            if killer in respawned.scores then Handled(respawned.(scores := CreditKill(respawned.scores, killer)), None)
            else Handled(respawned, Some(KeyNotFound(killer)))
  }

  /** The world id the killer path names, when it resolves. */
  function KillerId(ro: Roster, nodes: map<string, nat>, args: Option<seq<string>>): int
    requires NamesKiller(args) && Resolves(ro, nodes, args.value[1])
  {
    ro.actors[nodes[args.value[1]]].worldId
  }

  /**
    When a death event completes without a fault, and exactly when: the dead
    actor's path resolves, and if a killer is named its path resolves to an
    actor whose id has a score entry. An unresolved dead actor faults on its
    path and changes nothing.
   */
  lemma HandleActorDeadSucceeds(ro: Roster, args: Option<seq<string>>, nodes: map<string, nat>, pos: Position)
    requires NamesDeadActor(args)
    ensures HandleActorDead(ro, args, nodes, pos).fault.None? <==>
      && Resolves(ro, nodes, args.value[0])
      && (NamesKiller(args) ==> Resolves(ro, nodes, args.value[1]) && KillerId(ro, nodes, args) in ro.scores)
    ensures !Resolves(ro, nodes, args.value[0]) ==>
      HandleActorDead(ro, args, nodes, pos) == Handled(ro, Some(NodeNotFound(args.value[0])))
  {
  }

  /**
    Once the dead actor resolves, the death event tombstones it, appends an
    actor with the same id and brain, and keeps every other actor and the
    number of live actors, even when the killer lookup then faults. Without
    a fault a named killer gains one kill and nobody else anything; with a
    fault, or without a killer, no score changes.
   */
  lemma HandleActorDeadRespawnsAndCredits(ro: Roster, args: Option<seq<string>>, nodes: map<string, nat>, pos: Position)
    requires NamesDeadActor(args) && Resolves(ro, nodes, args.value[0])
    ensures var r := HandleActorDead(ro, args, nodes, pos);
      var t := r.value;
      var i := nodes[args.value[0]];
      var dead := ro.actors[i];
      && |t.actors| == |ro.actors| + 1
      && t.actors[i] == Tombstone(dead)
      && (forall j :: 0 <= j < |ro.actors| && j != i ==> t.actors[j] == ro.actors[j])
      && t.actors[|ro.actors|].worldId == dead.worldId
      && t.actors[|ro.actors|].brain == dead.brain
      && !t.actors[|ro.actors|].freed
      && LiveCount(t.actors) == LiveCount(ro.actors)
      && t.playerWorldId == ro.playerWorldId
      && t.scores.Keys == ro.scores.Keys
      && (r.fault.None? && NamesKiller(args) ==>
            && t.scores[KillerId(ro, nodes, args)] == Inc32(ro.scores[KillerId(ro, nodes, args)])
            && forall k :: k in ro.scores && k != KillerId(ro, nodes, args) ==> t.scores[k] == ro.scores[k])
      && (r.fault.Some? || !NamesKiller(args) ==> t.scores == ro.scores)
  {
    RespawnKeepsLiveCount(ro, nodes[args.value[0]], pos);
  }

  /** Under the invariant a death event can only fault on a path that does
      not resolve (the killer's score entry always exists), and whatever it
      leaves behind keeps the invariant. */
  lemma HandleActorDeadKeepsValid(ro: Roster, args: Option<seq<string>>, nodes: map<string, nat>, pos: Position)
    requires RosterValid(ro)
    ensures var r := HandleActorDead(ro, args, nodes, pos);
      && RosterValid(r.value)
      && (r.fault.Some? ==> r.fault.value.NodeNotFound?)
  {
    if NamesDeadActor(args) && Resolves(ro, nodes, args.value[0]) {
      var i := nodes[args.value[0]];
      RespawnKeepsValid(ro, i, pos);
      var respawned := Respawn(ro, i, pos);
      if NamesKiller(args) && Resolves(ro, nodes, args.value[1]) {
        assert KillerId(ro, nodes, args) in ro.scores;
        var credited := respawned.(scores := CreditKill(respawned.scores, KillerId(ro, nodes, args)));
        assert forall j :: 0 <= j < |credited.actors| ==> credited.actors[j].worldId in respawned.scores;
      }
    }
  }

  /** A death event for a dead actor that resolves draws a respawn point. */
  predicate DrawsSpawn(s: ArenaState, event: SessionEvent, nodes: map<string, nat>) {
    event.kind == ActorDied && NamesDeadActor(event.args) && Resolves(s.roster, nodes, event.args.value[0])
  }

  /** `HandleEvent(event)`: an actor death or a pause toggle; other kinds
      change nothing. `pick` is the random draw of a respawn point. */
  function HandleEvent(s: ArenaState, event: SessionEvent, nodes: map<string, nat>, pick: nat): (r: Handled<ArenaState>)
    requires DrawsSpawn(s, event, nodes) ==> pick < |s.setup.actorSpawnPoints|
    ensures event.kind == OtherEvent ==> r == Handled(s, None)
    ensures event.kind == Pause ==> r.fault.None? && r.value.roster.actors == TogglePause(s.roster.actors)
    ensures r.value.(roster := s.roster) == s
    ensures r.value.roster.playerWorldId == s.roster.playerWorldId
    ensures r.fault.Some? ==> event.kind == ActorDied && NamesDeadActor(event.args)
  {
    match event.kind
    case ActorDied =>
      var pos := if DrawsSpawn(s, event, nodes) then SpawnPoint(s.setup.actorSpawnPoints, pick) else Position(0.0, 0.0, 0.0);
      var h := HandleActorDead(s.roster, event.args, nodes, pos);
      Handled(s.(roster := h.value), h.fault)
    case Pause => Handled(s.(roster := s.roster.(actors := TogglePause(s.roster.actors))), None)
    case OtherEvent => Handled(s, None)
  }

  /** Two pause events restore the arena exactly. */
  lemma PauseTwiceRestores(s: ArenaState, args: Option<seq<string>>, nodes: map<string, nat>, pick: nat)
    ensures var once := HandleEvent(s, SessionEvent(Pause, args), nodes, pick);
      once.fault.None? && HandleEvent(once.value, SessionEvent(Pause, args), nodes, pick) == Handled(s, None)
  {
    TogglePauseInvolution(s.roster.actors);
  }

  /** Every event keeps the arena's invariant, faulted or not, and under it
      only an unresolved node path can fault. */
  lemma HandleEventKeepsValid(s: ArenaState, event: SessionEvent, nodes: map<string, nat>, pick: nat)
    requires Valid(s)
    requires DrawsSpawn(s, event, nodes) ==> pick < |s.setup.actorSpawnPoints|
    ensures var r := HandleEvent(s, event, nodes, pick);
      && Valid(r.value)
      && (r.fault.Some? ==> r.fault.value.NodeNotFound?)
  {
    var pos := if DrawsSpawn(s, event, nodes) then SpawnPoint(s.setup.actorSpawnPoints, pick) else Position(0.0, 0.0, 0.0);
    HandleActorDeadKeepsValid(s.roster, event.args, nodes, pos);
    if event.kind == Pause {
      var toggled := TogglePause(s.roster.actors);
      assert forall i :: 0 <= i < |toggled| ==> toggled[i].worldId == s.roster.actors[i].worldId;
    }
  }
}

=== FILE: hud.dfy ===
/**
  The round clock as the HUD shows it: `Arena.TimeFormat`, which renders a
  number of seconds as minutes ':' seconds, and a reader for that text.
 */
module Hud {
  import opened Outcomes
  import opened CSharpInt
  import opened Decimal

  /** One clock component: "00" when the value is below one, otherwise the
      value's plain decimal text (no zero padding, so 5 seconds is "5"). */
  function ComponentText(v: int): (s: string)
    ensures v < 1 ==> s == "00"
    ensures v >= 1 ==> |s| > 0 && AllDigits(s) && s[0] != '0' && ParseDigits(s) == v
  {
    if v < 1 then "00" else ParseNatString(v); NatString(v)
  }

  /** A component as `TimeFormat` can print it: exactly "00", or digits without a leading zero. */
  predicate CanonicalComponent(c: string) {
    c == "00" || (|c| > 0 && AllDigits(c) && c[0] != '0')
  }

  /** Minutes and seconds of `timeSeconds`, each taken with C#'s truncating `/` and `%`. */
  function TimeFormat(timeSeconds: int): (s: string)
    ensures timeSeconds <= 0 ==> s == "00:00"
    ensures exists i :: 0 <= i < |s| && s[i] == ':' && CanonicalComponent(s[..i]) && CanonicalComponent(s[i + 1..])
  {
    var minutesText := ComponentText(Quot(timeSeconds, 60));
    var secondsText := ComponentText(Rem(timeSeconds, 60));
    var s := minutesText + ":" + secondsText;
    assert s[..|minutesText|] == minutesText && s[|minutesText| + 1..] == secondsText;
    s
  }

  /** Index of the first ':' in `s`, or `|s|` when there is none. */
  function ColonIndex(s: string): (i: nat)
    ensures i <= |s|
    ensures forall j :: 0 <= j < i ==> s[j] != ':'
    ensures i < |s| ==> s[i] == ':'
  {
    if |s| == 0 then 0 else if s[0] == ':' then 0 else 1 + ColonIndex(s[1..])
  }

  /** Reads "<digits>:<digits>" back into its minutes and seconds. */
  function ParseClock(s: string): Option<(nat, nat)> {
    var i := ColonIndex(s);
    if i == |s| then None
    else
      var minutes, seconds := s[..i], s[i + 1..];
      if |minutes| > 0 && |seconds| > 0 && AllDigits(minutes) && AllDigits(seconds)
      then Some((ParseDigits(minutes), ParseDigits(seconds)))
      else None
  }

  lemma ColonAfterDigits(a: string, b: string)
    requires AllDigits(a)
    ensures ColonIndex(a + ":" + b) == |a|
  {
    var s := a + ":" + b;
    assert s[|a|] == ':';
    assert forall j :: 0 <= j < |a| ==> s[j] == a[j];
  }

  lemma ComponentReadsBack(v: int)
    requires v >= 0
    ensures |ComponentText(v)| > 0 && AllDigits(ComponentText(v)) && ParseDigits(ComponentText(v)) == v
  {
    if v < 1 {
      assert ComponentText(v) == "00";
      assert ParseDigits("0") == 0;
      assert "00"[..1] == "0";
    }
  }

  /** For a non-negative time the text reads back as its minutes and seconds. */
  lemma TimeFormatRoundTrip(t: int)
    requires t >= 0
    ensures ParseClock(TimeFormat(t)) == Some((t / 60, t % 60))
  {
    var m, sec := ComponentText(Quot(t, 60)), ComponentText(Rem(t, 60));
    assert Quot(t, 60) == t / 60 && Rem(t, 60) == t % 60;
    ComponentReadsBack(t / 60);
    ComponentReadsBack(t % 60);
    var s := m + ":" + sec;
    assert TimeFormat(t) == s;
    ColonAfterDigits(m, sec);
    assert s[..|m|] == m && s[|m| + 1..] == sec;
  }

  /** The examples the formatting is known by: no zero padding of a non-zero
      component, and "00" for every component below one. */
  lemma TimeFormatExamples()
    ensures TimeFormat(0) == "00:00"
    ensures TimeFormat(-1) == "00:00"
    ensures TimeFormat(600) == "10:00"
  {
    assert Quot(600, 60) == 10 && Rem(600, 60) == 0;
    assert ComponentText(10) == "10" by {
      assert NatString(1) == "1";
      assert NatString(10) == "10";
    }
  }

  /** Seconds are not zero-padded: 65 seconds reads "1:5". */
  lemma TimeFormatUnpaddedSeconds()
    ensures TimeFormat(65) == "1:5"
    ensures TimeFormat(299) == "4:59"
  {
    assert Quot(65, 60) == 1 && Rem(65, 60) == 5;
    assert Quot(299, 60) == 4 && Rem(299, 60) == 59;
    assert NatString(1) == "1" && NatString(4) == "4";
    assert NatString(59) == "59" by { assert NatString(5) == "5"; }
  }
}

=== FILE: id_counter.dfy ===
/**
  The arena's shared id counter `nextId`: `NextWorldId` and `NextItemName`
  both hand out the current value and then increment it.
 */
module IdCounter {
  import opened CSharpInt
  import opened Decimal

  /** `nextId`'s initial value, int.MinValue. */
  const FirstId: int := MinInt32

  /** The counter values handed out by `k` consecutive allocations starting at `c`. */
  function Issued(c: int, k: nat): (ids: seq<int>)
    requires IsInt32(c)
    ensures |ids| == k
    ensures k > 0 ==> ids[0] == c
    decreases k
  {
    if k == 0 then [] else [c] + Issued(Inc32(c), k - 1)
  }

  /** Until the counter would pass int.MaxValue, allocation `i` hands out `c + i`. */
  lemma {:induction false} IssuedCountsUp(c: int, k: nat)
    requires IsInt32(c) && c + k <= MaxInt32 + 1
    ensures forall i :: 0 <= i < k ==> Issued(c, k)[i] == c + i
    decreases k
  {
    if k > 0 {
      IssuedCountsUp(Inc32(c), k - 1);
    }
  }

  /** From int.MinValue, the first 2^32 allocations are strictly increasing,
      hence pairwise distinct. */
  lemma IssuedFromFirstIncreasing(k: nat)
    requires k <= 0x1_0000_0000
    ensures forall i, j :: 0 <= i < j < k ==> Issued(FirstId, k)[i] < Issued(FirstId, k)[j]
  {
    IssuedCountsUp(FirstId, k);
  }

  /** `"Item_" + n`: the name `NextItemName` gives the counter value `n`. */
  function ItemName(n: int): (name: string)
    ensures |name| > 5 && name[..5] == "Item_"
  {
    "Item_" + IntString(n)
  }

  /** Distinct counter values give distinct item names. */
  lemma ItemNameInjective(a: int, b: int)
    ensures ItemName(a) == ItemName(b) <==> a == b
  {
    if ItemName(a) == ItemName(b) {
      assert ItemName(a)[5..] == IntString(a);
      assert ItemName(b)[5..] == IntString(b);
      IntStringInjective(a, b);
    }
  }
}

=== FILE: objective.dfy ===
/**
  The HUD's objective text, `GetObjectiveText()`: the verdict once the score
  is presented, otherwise the arena's title, the remaining time and the
  local player's score.
 */
module Objective {
  import opened Outcomes
  import opened CSharpInt
  import opened Decimal
  import opened Hud
  import opened ScoreBoard
  import opened State

  /** `(int)roundTimeRemaining`: the remaining whole seconds, truncated toward zero. */
  function WholeSeconds(c: Clock): (t: int)
    ensures c.roundTimeRemaining >= 0 ==> t * Second <= c.roundTimeRemaining < (t + 1) * Second
    ensures c.roundTimeRemaining >= 0 ==> t >= 0
    ensures c.roundTimeRemaining < 0 ==> t <= 0
  {
    Quot(c.roundTimeRemaining, Second)
  }

  /** The running text: "Arena", then the time, then the score, one per line. */
  function RunningText(timeText: string, score: int): string {
    "Arena\nTime: " + timeText + "\nScore: " + IntString(score)
  }

  /**
    `GetObjectiveText()`: after the score is presented, "Victory!" or
    "Defeat!" from `PlayerWon()` as written (which may throw); before,
    the running text, where a missing score entry for the local player
    throws.
   */
  function ObjectiveText(s: ArenaState, order: seq<int>): (r: Result<string>)
    requires IsEnumeration(order, s.roster.scores)
    ensures s.clock.scorePresented ==>
      && (r == Ok("Victory!") <==> PlayerWon(s.roster.scores, order, s.roster.playerWorldId) == Ok(true))
      && (r == Ok("Defeat!") <==> PlayerWon(s.roster.scores, order, s.roster.playerWorldId) == Ok(false))
      && (r.Err? <==> PlayerWon(s.roster.scores, order, s.roster.playerWorldId).Err?)
    ensures !s.clock.scorePresented ==> (r.Ok? <==> s.roster.playerWorldId in s.roster.scores)
  {
    if s.clock.scorePresented then
      match PlayerWon(s.roster.scores, order, s.roster.playerWorldId)
      case Ok(won) => Ok(if won then "Victory!" else "Defeat!")
      case Err(f) => Err(f)
    else
      var timeText := TimeFormat(WholeSeconds(s.clock));
      if s.roster.playerWorldId !in s.roster.scores then Err(KeyNotFound(s.roster.playerWorldId))
      else Ok(RunningText(timeText, s.roster.scores[s.roster.playerWorldId]))
  }

  /**
    Before the presentation, the text is "Arena", the formatted whole
    seconds and the local player's score, one per line. Under a second left,
    including the negative time a client can hold from `SyncTime`, the clock
    reads "00:00". With time left, the two lines read back as the remaining
    minutes and seconds and as the score.
   */
  lemma ObjectiveTextReadsBack(s: ArenaState, order: seq<int>)
    requires IsEnumeration(order, s.roster.scores)
    requires !s.clock.scorePresented && s.roster.playerWorldId in s.roster.scores
    ensures ObjectiveText(s, order) ==
      Ok("Arena\nTime: " + TimeFormat(WholeSeconds(s.clock)) + "\nScore: " + IntString(s.roster.scores[s.roster.playerWorldId]))
    ensures s.clock.roundTimeRemaining < Second ==>
      ObjectiveText(s, order) == Ok("Arena\nTime: " + "00:00" + "\nScore: " + IntString(s.roster.scores[s.roster.playerWorldId]))
    ensures s.clock.roundTimeRemaining >= 0 ==> exists timeText, scoreText ::
      && ObjectiveText(s, order).value == "Arena\nTime: " + timeText + "\nScore: " + scoreText
      && ParseClock(timeText) == Some((WholeSeconds(s.clock) / 60, WholeSeconds(s.clock) % 60))
      && ParseInt(scoreText) == Some(s.roster.scores[s.roster.playerWorldId])
  {
    var t := WholeSeconds(s.clock);
    var score := s.roster.scores[s.roster.playerWorldId];
    assert ObjectiveText(s, order).value == RunningText(TimeFormat(t), score);
    if s.clock.roundTimeRemaining < Second {
      assert t <= 0;
    }
    if s.clock.roundTimeRemaining >= 0 {
      TimeFormatRoundTrip(t);
      IntStringRoundTrip(score);
    }
  }

  /** When the presented score is the player's and nobody has more, the text is "Victory!". */
  lemma ObjectiveTextUnbeaten(s: ArenaState, order: seq<int>)
    requires IsEnumeration(order, s.roster.scores) && s.clock.scorePresented
    requires s.roster.playerWorldId in s.roster.scores
    requires forall k :: k in s.roster.scores ==> s.roster.scores[k] <= s.roster.scores[s.roster.playerWorldId]
    ensures ObjectiveText(s, order) == Ok("Victory!")
  {
    PlayerWonWhenUnbeaten(s.roster.scores, order, s.roster.playerWorldId);
  }

  /** The objective text with the corrected verdict of `PlayerWonIntended`. */
  function IntendedObjectiveText(s: ArenaState, order: seq<int>): (r: Result<string>)
    requires IsEnumeration(order, s.roster.scores)
    ensures s.roster.playerWorldId !in s.roster.scores ==> r == Err(KeyNotFound(s.roster.playerWorldId))
    ensures !s.clock.scorePresented ==> r == ObjectiveText(s, order)
  {
    if s.roster.playerWorldId !in s.roster.scores then Err(KeyNotFound(s.roster.playerWorldId))
    else if s.clock.scorePresented then
      Ok(if PlayerWonIntended(s.roster.scores, order, s.roster.playerWorldId) then "Victory!" else "Defeat!")
    else ObjectiveText(s, order)
  }

  /** With the corrected verdict, a presented score reads "Victory!" exactly
      when nobody has more kills than the local player, and "Defeat!" otherwise. */
  lemma IntendedObjectiveTextIsMaximum(s: ArenaState, order: seq<int>)
    requires IsEnumeration(order, s.roster.scores)
    requires s.clock.scorePresented && s.roster.playerWorldId in s.roster.scores
    ensures var r := IntendedObjectiveText(s, order);
      && (r == Ok("Victory!") <==> forall k :: k in s.roster.scores ==> s.roster.scores[k] <= s.roster.scores[s.roster.playerWorldId])
      && (r == Ok("Defeat!") <==> exists k :: k in s.roster.scores && s.roster.scores[k] > s.roster.scores[s.roster.playerWorldId])
  {
    PlayerWonIntendedIsMaximum(s.roster.scores, order, s.roster.playerWorldId);
  }
}

=== FILE: outcomes.dfy ===
/**
  Stand-ins for what the C# arena code expresses with null references and
  run-time exceptions.
 */
module Outcomes {

  /** A possibly-absent value: C#'s null reference, or an engine default. */
  datatype Option<+T> = None | Some(value: T)

  /** The run-time exceptions the arena code can raise. */
  datatype Fault =
    | NodeNotFound(path: string)  // `GetNode(path) as Actor` yields null and is dereferenced
    | KeyNotFound(key: int)       // the Dictionary<int, int> indexer on a missing key

  /** The outcome of an operation that may throw. */
  datatype Result<+T> = Ok(value: T) | Err(fault: Fault)

  /** The outcome of an engine callback that may throw part-way: the engine
      logs the exception and keeps every change made before it, so the
      state is there whether or not a fault was raised. */
  datatype Handled<+T> = Handled(value: T, fault: Option<Fault>)
}

=== FILE: remote.dfy ===
/**
  The receiving side of the arena's broadcasts: each `[Remote]` method a
  peer runs when a message arrives.
 */
module Remote {
  import opened Outcomes
  import opened CSharpInt
  import opened Actors
  import opened State
  import opened RoundClock
  import opened Spawning

  /** A received broadcast, dispatched to its `[Remote]` handler. */
  function Deliver(s: ArenaState, m: Message): (r: ArenaState)
    ensures m.SyncTimeCall? ==> r.clock.roundTimeRemaining == m.newTime
    ensures m.PresentScoreCall? ==> r.clock.scorePresented && forall i :: 0 <= i < |r.roster.actors| ==> r.roster.actors[i].paused
    ensures m.RoundOverCall? ==> !r.clock.roundTimerActive
    ensures m.DeferredSpawnItemCall? ==> r.items == s.items + [Item(m.kind, Some(m.name), m.pos)]
    ensures r.roster.scores == s.roster.scores && r.nextId == s.nextId && r.setup == s.setup
  {
    match m
    case SyncTimeCall(t) => SyncTime(s, t)
    case PresentScoreCall => PresentScore(s)
    case RoundOverCall => RoundOver(s)
    case DeferredSpawnItemCall(kind, name, pos) => DeferredSpawnItem(s, kind, name, pos)
  }

  /** A received broadcast keeps the peer's invariant: no handler touches a
      world id, a score or the id counter. */
  lemma DeliverKeepsValid(s: ArenaState, m: Message)
    requires Valid(s)
    ensures Valid(Deliver(s, m))
  {
  }

  /** A server tick that flushes broadcasts the new remaining time first; a
      peer that receives it shows the server's time. */
  lemma SyncTimeMirrorsServer(s: ArenaState, delta: nat, sess: Session, peer: ArenaState)
    requires sess.isServer && Flushes(s, delta)
    ensures var r := Timer(s, delta, sess);
      && |NewEffects(s, r)| > 0 && NewEffects(s, r)[0] == Rpc(SyncTimeCall(RemainingAfter(s, delta)))
      && Deliver(peer, NewEffects(s, r)[0].msg).clock.roundTimeRemaining == r.clock.roundTimeRemaining
  {
    var r := Timer(s, delta, sess);
    var t := RemainingAfter(s, delta);
    var flushed := s.(clock := s.clock.(roundTimeRemaining := t, secondCounter := 0));
    var synced := Emit(flushed, Rpc(SyncTimeCall(t)));
    var presented := PresentScoreIfDue(synced, sess);
    assert r.effects[..|synced.effects|] == synced.effects by {
      assert Extends(presented, r);
    }
    assert r.effects[|s.effects|] == synced.effects[|s.effects|];
    TimerFlushes(s, delta, sess);
  }

  /** A peer that receives the server's spawn broadcast creates the same item
      the server created. */
  lemma DeferredSpawnMirrorsServer(s: ArenaState, sess: Session, kind: ItemType, pick: nat, peer: ArenaState)
    requires IsInt32(s.nextId) && sess.isServer && pick < |s.setup.itemSpawnPoints|
    ensures var r := SpawnItem(s, sess, kind, pick);
      && |NewEffects(s, r)| == 1 && NewEffects(s, r)[0].Rpc?
      && Deliver(peer, NewEffects(s, r)[0].msg).items == peer.items + [r.items[|s.items|]]
  {
    SpawnItemReplicates(s, sess, kind, pick, peer);
  }

  /** Receiving the presentation and then the round's end leaves a peer with
      the score presented, every actor paused and the clock stopped, whatever
      its state before. */
  lemma PresentThenEndSettlesPeer(peer: ArenaState)
    ensures var r := Deliver(Deliver(peer, PresentScoreCall), RoundOverCall);
      && r.clock.scorePresented && !r.clock.roundTimerActive
      && forall i :: 0 <= i < |r.roster.actors| ==> r.roster.actors[i].paused
  {
  }
}

=== FILE: round_clock.dfy ===
/**
  The round clock of the Arena: `_Process`, `Timer`, and the handlers of
  the three clock broadcasts, `SyncTime`, `PresentScore` and `RoundOver`.
 */
module RoundClock {
  import opened Actors
  import opened State

  /** `SyncTime(newTime)`: the remaining time is overwritten by the server's value. */
  function SyncTime(s: ArenaState, newTime: int): (r: ArenaState)
    ensures r.clock.roundTimeRemaining == newTime
    ensures r.clock.(roundTimeRemaining := s.clock.roundTimeRemaining) == s.clock
    ensures r.(clock := s.clock) == s
  {
    s.(clock := s.clock.(roundTimeRemaining := newTime))
  }

  /** `PresentScore()`: marks the score presented, pauses every actor and shows the HUD. */
  function PresentScore(s: ArenaState): (r: ArenaState)
    ensures r.clock.scorePresented
    ensures r.clock.(scorePresented := s.clock.scorePresented) == s.clock
    ensures |r.roster.actors| == |s.roster.actors|
    ensures forall i :: 0 <= i < |r.roster.actors| ==> r.roster.actors[i].paused && r.roster.actors[i].(paused := s.roster.actors[i].paused) == s.roster.actors[i]
    ensures r.effects == s.effects + [ChangeMenu(HUD)]
    ensures r.roster.(actors := s.roster.actors) == s.roster
    ensures r.(clock := s.clock, roster := s.roster, effects := s.effects) == s
  {
    var paused := s.(clock := s.clock.(scorePresented := true), roster := s.roster.(actors := SetPause(s.roster.actors, true)));
    Emit(paused, ChangeMenu(HUD))
  }

  /** `RoundOver()`: stops the clock; single player returns to the main menu,
      multiplayer goes to the lobby and clears the game. */
  function RoundOver(s: ArenaState): (r: ArenaState)
    ensures !r.clock.roundTimerActive
    ensures r.clock.(roundTimerActive := s.clock.roundTimerActive) == s.clock
    ensures s.setup.singlePlayer ==> r.effects == s.effects + [QuitToMainMenu]
    ensures !s.setup.singlePlayer ==> r.effects == s.effects + [ChangeMenu(Lobby), ClearGame(true)]
    ensures r.(clock := s.clock, effects := s.effects) == s
  {
    var stopped := s.(clock := s.clock.(roundTimerActive := false));
    if s.setup.singlePlayer then Emit(stopped, QuitToMainMenu)
    else Emit(Emit(stopped, ChangeMenu(Lobby)), ClearGame(true))
  }

  /** Whether a tick of `delta` brings the accumulated time to a whole second or more. */
  predicate Flushes(s: ArenaState, delta: nat) {
    s.clock.secondCounter + delta >= Second
  }

  /** The remaining time after a flushing tick of `delta`. */
  function RemainingAfter(s: ArenaState, delta: nat): int {
    s.clock.roundTimeRemaining - (s.clock.secondCounter + delta)
  }

  /** The tick presents the score: it flushes below zero and the score was not yet presented. */
  predicate PresentsNow(s: ArenaState, delta: nat) {
    Flushes(s, delta) && RemainingAfter(s, delta) < 0 && !s.clock.scorePresented
  }

  /** The tick ends the round: on the server, it flushes below `-ScoreDuration`. */
  predicate EndsNow(s: ArenaState, delta: nat, sess: Session) {
    sess.isServer && Flushes(s, delta) && RemainingAfter(s, delta) < -ScoreDuration
  }

  /** A step of `Timer` leaves the roster, the items, the scores and the ids
      alone and only appends effects. */
  predicate Untimed(s: ArenaState, r: ArenaState) {
    && r.setup == s.setup && r.items == s.items && r.nextId == s.nextId
    && r.roster.scores == s.roster.scores && r.roster.playerWorldId == s.roster.playerWorldId
    && |r.roster.actors| == |s.roster.actors|
    && Extends(s, r)
  }

  /** The presentation check of `Timer`: the first time the remaining time
      is negative, present the score, and on the server broadcast it. */
  function PresentScoreIfDue(s: ArenaState, sess: Session): (r: ArenaState)
    ensures Untimed(s, r) && r.clock.roundTimeRemaining == s.clock.roundTimeRemaining
    ensures r.clock.secondCounter == s.clock.secondCounter && r.clock.roundTimerActive == s.clock.roundTimerActive
  {
    if s.clock.roundTimeRemaining < 0 && !s.clock.scorePresented then
      var presented := PresentScore(s);
      if sess.isServer then Emit(presented, Rpc(PresentScoreCall)) else presented
    else s
  }

  /** The round-end check of `Timer`: below `-ScoreDuration`, the server
      broadcasts the round's end and ends it locally. */
  function EndRoundIfDue(s: ArenaState, sess: Session): (r: ArenaState)
    ensures Untimed(s, r) && r.clock.roundTimeRemaining == s.clock.roundTimeRemaining
    ensures r.clock.secondCounter == s.clock.secondCounter
  {
    if s.clock.roundTimeRemaining < -ScoreDuration && sess.isServer then RoundOver(Emit(s, Rpc(RoundOverCall)))
    else s
  }

  /**
    `Timer(delta)`: accumulates `delta`; once a second or more has built up,
    takes the whole accumulated amount off the remaining time and resets the
    accumulator, then (server only) broadcasts the new time, and checks the
    two thresholds.
   */
  function Timer(s: ArenaState, delta: nat, sess: Session): (r: ArenaState)
    ensures r.clock.roundTimeRemaining - r.clock.secondCounter == s.clock.roundTimeRemaining - s.clock.secondCounter - delta
    ensures Untimed(s, r)
  {
    var counter := s.clock.secondCounter + delta;
    if counter < Second then s.(clock := s.clock.(secondCounter := counter))
    else
      var t := s.clock.roundTimeRemaining - counter;
      var flushed := s.(clock := s.clock.(roundTimeRemaining := t, secondCounter := 0));
      var synced := if sess.isServer then Emit(flushed, Rpc(SyncTimeCall(t))) else flushed;
      EndRoundIfDue(PresentScoreIfDue(synced, sess), sess)
  }

  /** Below a second in total, a tick only grows the accumulator. */
  lemma TimerAccumulates(s: ArenaState, delta: nat, sess: Session)
    requires !Flushes(s, delta)
    ensures var r := Timer(s, delta, sess);
      && r.clock.secondCounter == s.clock.secondCounter + delta
      && r.clock.(secondCounter := s.clock.secondCounter) == s.clock
      && r.(clock := s.clock) == s
  {
  }

  /** From a second on, the remaining time drops by exactly the accumulated
      amount and the accumulator is reset. */
  lemma TimerFlushes(s: ArenaState, delta: nat, sess: Session)
    requires Flushes(s, delta)
    ensures var r := Timer(s, delta, sess);
      && r.clock.secondCounter == 0
      && r.clock.roundTimeRemaining == s.clock.roundTimeRemaining - (s.clock.secondCounter + delta)
  {
  }

  /** The score is presented exactly when the tick flushes below zero with the
      score not yet presented; then every actor is paused. */
  lemma TimerPresentsScore(s: ArenaState, delta: nat, sess: Session)
    ensures var r := Timer(s, delta, sess);
      && (r.clock.scorePresented <==> s.clock.scorePresented || PresentsNow(s, delta))
      && (PresentsNow(s, delta) ==> forall i :: 0 <= i < |r.roster.actors| ==> r.roster.actors[i].paused)
      && (PresentsNow(s, delta) ==>
            && |r.roster.actors| == |s.roster.actors|
            && forall i :: 0 <= i < |s.roster.actors| ==> r.roster.actors[i] == s.roster.actors[i].(paused := true))
      && (!PresentsNow(s, delta) ==> r.roster.actors == s.roster.actors)
  {
  }

  /** The clock stops exactly when the server's tick flushes below `-ScoreDuration`;
      the score has been presented by then. */
  lemma TimerEndsRound(s: ArenaState, delta: nat, sess: Session)
    ensures var r := Timer(s, delta, sess);
      && (r.clock.roundTimerActive <==> s.clock.roundTimerActive && !EndsNow(s, delta, sess))
      && (EndsNow(s, delta, sess) ==> r.clock.scorePresented)
  {
  }

  /** A tick on an instance that is not the server broadcasts nothing. */
  lemma TimerClientSendsNoRpc(s: ArenaState, delta: nat, sess: Session)
    requires !sess.isServer
    ensures var r := Timer(s, delta, sess);
      forall e :: e in NewEffects(s, r) ==> !e.Rpc?
  {
    var r := Timer(s, delta, sess);
    if Flushes(s, delta) {
      var t := RemainingAfter(s, delta);
      var flushed := s.(clock := s.clock.(roundTimeRemaining := t, secondCounter := 0));
      var presented := PresentScoreIfDue(flushed, sess);
      assert NewEffects(s, r) == NewEffects(s, presented);
    }
  }

  /** `_Process(delta)`: the clock only runs while the round timer is active. */
  function Process(s: ArenaState, delta: nat, sess: Session): (r: ArenaState)
    ensures !s.clock.roundTimerActive ==> r == s
    ensures Extends(s, r)
  {
    if s.clock.roundTimerActive then Timer(s, delta, sess) else s
  }

  /** A frame keeps the arena's invariant: pausing for the score and ending
      the round touch neither world ids, scores nor the id counter. */
  lemma ProcessKeepsValid(s: ArenaState, delta: nat, sess: Session)
    requires Valid(s)
    ensures Valid(Process(s, delta, sess))
  {
  }

  /** Consecutive frames of `_Process`. */
  function Run(s: ArenaState, deltas: seq<nat>, sess: Session): (r: ArenaState)
    decreases |deltas|
  {
    if |deltas| == 0 then s else Run(Process(s, deltas[0], sess), deltas[1..], sess)
  }

  /** Any run of frames keeps the arena's invariant. */
  lemma {:induction false} RunKeepsValid(s: ArenaState, deltas: seq<nat>, sess: Session)
    requires Valid(s)
    ensures Valid(Run(s, deltas, sess))
    decreases |deltas|
  {
    if |deltas| > 0 {
      ProcessKeepsValid(s, deltas[0], sess);
      RunKeepsValid(Process(s, deltas[0], sess), deltas[1..], sess);
    }
  }

  /** Once the round is over the clock never moves again. */
  lemma {:induction false} RunAfterRoundOver(s: ArenaState, deltas: seq<nat>, sess: Session)
    requires !s.clock.roundTimerActive
    ensures Run(s, deltas, sess) == s
    decreases |deltas|
  {
    if |deltas| > 0 {
      RunAfterRoundOver(s, deltas[1..], sess);
    }
  }

  // ---------------------------------------------------------------------
  // The order of the two threshold broadcasts.

  predicate IsSignal(e: Effect) {
    e == Rpc(PresentScoreCall) || e == Rpc(RoundOverCall)
  }

  /** The score-presentation and round-over broadcasts among `es`, in order. */
  function Signals(es: seq<Effect>): (r: seq<Effect>)
    ensures forall e :: e in r <==> e in es && IsSignal(e)
    decreases |es|
  {
    if |es| == 0 then []
    else (if IsSignal(es[0]) then [es[0]] else []) + Signals(es[1..])
  }

  lemma {:induction false} SignalsAppend(a: seq<Effect>, b: seq<Effect>)
    ensures Signals(a + b) == Signals(a) + Signals(b)
    decreases |a|
  {
    if |a| > 0 {
      assert (a + b)[0] == a[0];
      assert (a + b)[1..] == a[1..] + b;
      SignalsAppend(a[1..], b);
    } else {
      assert a + b == b;
    }
  }

  lemma SignalsEmit(s: ArenaState, e: Effect)
    ensures Signals(Emit(s, e).effects) == Signals(s.effects) + (if IsSignal(e) then [e] else [])
  {
    SignalsAppend(s.effects, [e]);
  }

  lemma PresentScoreSignals(s: ArenaState)
    ensures Signals(PresentScore(s).effects) == Signals(s.effects)
  {
    SignalsAppend(s.effects, [ChangeMenu(HUD)]);
  }

  lemma RoundOverSignals(s: ArenaState)
    ensures Signals(RoundOver(s).effects) == Signals(s.effects)
  {
    var stopped := s.(clock := s.clock.(roundTimerActive := false));
    if s.setup.singlePlayer {
      SignalsEmit(stopped, QuitToMainMenu);
    } else {
      SignalsEmit(stopped, ChangeMenu(Lobby));
      SignalsEmit(Emit(stopped, ChangeMenu(Lobby)), ClearGame(true));
    }
  }

  /** The threshold broadcasts one tick adds: the score presentation if it is
      due on the server, then the round's end if it is due. */
  lemma TimerSignals(s: ArenaState, delta: nat, sess: Session)
    ensures Signals(Timer(s, delta, sess).effects) == Signals(s.effects)
      + (if sess.isServer && PresentsNow(s, delta) then [Rpc(PresentScoreCall)] else [])
      + (if EndsNow(s, delta, sess) then [Rpc(RoundOverCall)] else [])
  {
    if Flushes(s, delta) {
      var t := RemainingAfter(s, delta);
      var flushed := s.(clock := s.clock.(roundTimeRemaining := t, secondCounter := 0));
      var synced := if sess.isServer then Emit(flushed, Rpc(SyncTimeCall(t))) else flushed;
      if sess.isServer {
        SignalsEmit(flushed, Rpc(SyncTimeCall(t)));
      }
      assert Signals(synced.effects) == Signals(s.effects);
      var presented := PresentScoreIfDue(synced, sess);
      if t < 0 && !synced.clock.scorePresented {
        PresentScoreSignals(synced);
        if sess.isServer {
          SignalsEmit(PresentScore(synced), Rpc(PresentScoreCall));
        }
      }
      if t < -ScoreDuration && sess.isServer {
        SignalsEmit(presented, Rpc(RoundOverCall));
        RoundOverSignals(Emit(presented, Rpc(RoundOverCall)));
      }
    }
  }

  /** What the server has broadcast so far, given its clock: nothing before
      the score is presented, then the presentation, then the round's end. */
  function ExpectedSignals(c: Clock): seq<Effect> {
    if !c.scorePresented then []
    else if c.roundTimerActive then [Rpc(PresentScoreCall)]
    else [Rpc(PresentScoreCall), Rpc(RoundOverCall)]
  }

  /** The server's broadcasts agree with its clock, and a stopped clock has
      presented the score. */
  predicate ClockInv(s: ArenaState) {
    && Signals(s.effects) == ExpectedSignals(s.clock)
    && (!s.clock.roundTimerActive ==> s.clock.scorePresented)
  }

  lemma ProcessKeepsClockInv(s: ArenaState, delta: nat, sess: Session)
    requires sess.isServer && ClockInv(s)
    ensures ClockInv(Process(s, delta, sess))
  {
    if s.clock.roundTimerActive {
      TimerSignals(s, delta, sess);
      TimerPresentsScore(s, delta, sess);
      TimerEndsRound(s, delta, sess);
    }
  }

  lemma {:induction false} RunKeepsClockInv(s: ArenaState, deltas: seq<nat>, sess: Session)
    requires sess.isServer && ClockInv(s)
    ensures ClockInv(Run(s, deltas, sess))
    decreases |deltas|
  {
    if |deltas| > 0 {
      ProcessKeepsClockInv(s, deltas[0], sess);
      RunKeepsClockInv(Process(s, deltas[0], sess), deltas[1..], sess);
    }
  }

  /**
    On the server, from a running round whose score is not yet presented,
    any sequence of frames broadcasts the score presentation at most once,
    the round's end at most once and only after the presentation, and the
    round's end is broadcast exactly when the clock has stopped.
   */
  lemma ServerSignalsInOrder(s: ArenaState, deltas: seq<nat>, sess: Session)
    requires sess.isServer
    requires s.clock.roundTimerActive && !s.clock.scorePresented && Signals(s.effects) == []
    ensures var r := Run(s, deltas, sess);
      && (Signals(r.effects) == [] || Signals(r.effects) == [Rpc(PresentScoreCall)]
          || Signals(r.effects) == [Rpc(PresentScoreCall), Rpc(RoundOverCall)])
      && (Signals(r.effects) == [Rpc(PresentScoreCall), Rpc(RoundOverCall)] <==> !r.clock.roundTimerActive)
  {
    RunKeepsClockInv(s, deltas, sess);
  }

  // ---------------------------------------------------------------------
  // Enough frames present the score.

  /** The total time a sequence of frames covers. */
  function Elapsed(deltas: seq<nat>): nat
    decreases |deltas|
  {
    if |deltas| == 0 then 0 else deltas[0] + Elapsed(deltas[1..])
  }

  /** The clock is on course to present the score: less than a second is
      accumulated, and a negative remaining time or a stopped clock means the
      score has been presented. */
  predicate OnCourse(s: ArenaState) {
    && s.clock.secondCounter < Second
    && (s.clock.roundTimeRemaining < 0 ==> s.clock.scorePresented)
    && (!s.clock.roundTimerActive ==> s.clock.scorePresented)
  }

  /** A frame keeps the clock on course, and a running frame takes exactly
      its `delta` off the time still to run. */
  lemma ProcessKeepsOnCourse(s: ArenaState, delta: nat, sess: Session)
    requires OnCourse(s)
    ensures var r := Process(s, delta, sess);
      && OnCourse(r)
      && (s.clock.roundTimerActive ==>
            r.clock.roundTimeRemaining - r.clock.secondCounter == s.clock.roundTimeRemaining - s.clock.secondCounter - delta)
  {
    if s.clock.roundTimerActive {
      if Flushes(s, delta) {
        TimerFlushes(s, delta, sess);
      } else {
        TimerAccumulates(s, delta, sess);
      }
      TimerPresentsScore(s, delta, sess);
      TimerEndsRound(s, delta, sess);
    }
  }

  /**
    From a clock on course, frames covering the remaining time plus one more
    second always present the score, on the server and on any instance that
    runs the clock.
   */
  lemma {:induction false} RunPresentsScore(s: ArenaState, deltas: seq<nat>, sess: Session)
    requires OnCourse(s)
    requires Elapsed(deltas) >= s.clock.roundTimeRemaining - s.clock.secondCounter + Second
    ensures Run(s, deltas, sess).clock.scorePresented
    decreases |deltas|
  {
    if |deltas| > 0 {
      if s.clock.roundTimerActive {
        ProcessKeepsOnCourse(s, deltas[0], sess);
        RunPresentsScore(Process(s, deltas[0], sess), deltas[1..], sess);
      } else {
        RunAfterRoundOver(s, deltas, sess);
      }
    }
  }

  /**
    On the server, from a freshly started round with nothing broadcast, frames
    covering the whole round and one more second broadcast the score
    presentation exactly once, possibly followed by the round's end.
   */
  lemma ServerPresentsScoreOnce(s: ArenaState, deltas: seq<nat>, sess: Session)
    requires sess.isServer
    requires s.clock.roundTimerActive && !s.clock.scorePresented && Signals(s.effects) == []
    requires s.clock.secondCounter < Second && s.clock.roundTimeRemaining >= 0
    requires Elapsed(deltas) >= s.clock.roundTimeRemaining - s.clock.secondCounter + Second
    ensures var r := Run(s, deltas, sess);
      Signals(r.effects) == [Rpc(PresentScoreCall)] || Signals(r.effects) == [Rpc(PresentScoreCall), Rpc(RoundOverCall)]
  {
    RunPresentsScore(s, deltas, sess);
    RunKeepsClockInv(s, deltas, sess);
  }

  // ---------------------------------------------------------------------
  // Enough server frames end the round.

  /** The server's clock is on course to end the round: less than a second
      is accumulated, and a remaining time below `-ScoreDuration` means the
      clock has stopped. */
  predicate EndOnCourse(s: ArenaState) {
    && s.clock.secondCounter < Second
    && (s.clock.roundTimeRemaining < -ScoreDuration ==> !s.clock.roundTimerActive)
  }

  /** A server frame keeps the clock on course to end the round, and a
      running frame takes exactly its `delta` off the time still to run. */
  lemma ProcessKeepsEndOnCourse(s: ArenaState, delta: nat, sess: Session)
    requires sess.isServer && EndOnCourse(s)
    ensures var r := Process(s, delta, sess);
      && EndOnCourse(r)
      && (s.clock.roundTimerActive ==>
            r.clock.roundTimeRemaining - r.clock.secondCounter == s.clock.roundTimeRemaining - s.clock.secondCounter - delta)
  {
    if s.clock.roundTimerActive {
      if Flushes(s, delta) {
        TimerFlushes(s, delta, sess);
      } else {
        TimerAccumulates(s, delta, sess);
      }
      TimerEndsRound(s, delta, sess);
    }
  }

  /**
    On the server, from a clock on course, frames covering the remaining
    time, the score window and one more second stop the clock: the round
    always ends.
   */
  lemma {:induction false} RunEndsRound(s: ArenaState, deltas: seq<nat>, sess: Session)
    requires sess.isServer && EndOnCourse(s)
    requires Elapsed(deltas) >= s.clock.roundTimeRemaining - s.clock.secondCounter + ScoreDuration + Second
    ensures !Run(s, deltas, sess).clock.roundTimerActive
    decreases |deltas|
  {
    if |deltas| > 0 {
      if s.clock.roundTimerActive {
        ProcessKeepsEndOnCourse(s, deltas[0], sess);
        RunEndsRound(Process(s, deltas[0], sess), deltas[1..], sess);
      } else {
        RunAfterRoundOver(s, deltas, sess);
      }
    }
  }

  /**
    On the server, from a freshly started round with nothing broadcast, frames
    covering the whole round, the score window and one more second broadcast
    the score presentation exactly once and then the round's end exactly once.
   */
  lemma ServerEndsRoundOnce(s: ArenaState, deltas: seq<nat>, sess: Session)
    requires sess.isServer
    requires s.clock.roundTimerActive && !s.clock.scorePresented && Signals(s.effects) == []
    requires s.clock.secondCounter < Second && s.clock.roundTimeRemaining >= 0
    requires Elapsed(deltas) >= s.clock.roundTimeRemaining - s.clock.secondCounter + ScoreDuration + Second
    ensures Signals(Run(s, deltas, sess).effects) == [Rpc(PresentScoreCall), Rpc(RoundOverCall)]
  {
    RunEndsRound(s, deltas, sess);
    RunKeepsClockInv(s, deltas, sess);
  }
}

=== FILE: scoreboard.dfy ===
/**
  The arena's `scores` dictionary: world id to kill count, its updates, and
  the `PlayerWon` verdict shown when the round's score is presented.
 */
module ScoreBoard {
  import opened Outcomes
  import opened CSharpInt
  import opened IdCounter

  /** A `Dictionary<int, int>`: every kill count is a 32-bit `int`. */
  type Scores = map<int, Int32>

  /** `scores.Add(id, 0)`; the Add would throw on a key already present. */
  function Register(scores: Scores, id: int): (r: Scores)
    requires id !in scores
    ensures r.Keys == scores.Keys + {id}
    ensures r[id] == 0
    ensures forall k :: k in scores ==> r[k] == scores[k]
  {
    scores[id := 0]
  }

  /** `scores[killer]++`, unchecked like every `int` increment: a count at
      int.MaxValue wraps to int.MinValue. The indexer would throw on a
      missing key. */
  function CreditKill(scores: Scores, killer: int): (r: Scores)
    requires killer in scores
    ensures r.Keys == scores.Keys
    ensures scores[killer] < MaxInt32 ==> r[killer] == scores[killer] + 1
    ensures scores[killer] == MaxInt32 ==> r[killer] == MinInt32
    ensures forall k :: k in scores && k != killer ==> r[k] == scores[k]
  {
    scores[killer := Inc32(scores[killer])]
  }

  /** `n` kill credits to the same id. */
  function CreditKills(scores: Scores, killer: int, n: nat): (r: Scores)
    requires killer in scores
    ensures r.Keys == scores.Keys
    decreases n
  {
    if n == 0 then scores else CreditKills(CreditKill(scores, killer), killer, n - 1)
  }

  /** A registered id credited `n` times steps its count `n` times through
      the 32-bit values, the way the id counter steps, so it gains `n` until
      int.MaxValue is passed; nobody else's score moves. */
  lemma {:induction false} CreditsAccumulate(scores: Scores, id: int, n: nat)
    requires id in scores
    ensures CreditKills(scores, id, n)[id] == Issued(scores[id], n + 1)[n]
    ensures scores[id] + n <= MaxInt32 ==> CreditKills(scores, id, n)[id] == scores[id] + n
    ensures forall k :: k in scores && k != id ==> CreditKills(scores, id, n)[k] == scores[k]
    decreases n
  {
    if n > 0 {
      CreditsAccumulate(CreditKill(scores, id), id, n - 1);
    }
    if scores[id] + n <= MaxInt32 {
      IssuedCountsUp(scores[id], n + 1);
    }
  }

  /** A newly registered id credited `n` times scores `n`, up to int.MaxValue
      kills, and int.MinValue at the next one. */
  lemma RegisterThenCredit(scores: Scores, id: int, n: nat)
    requires id !in scores
    ensures n <= MaxInt32 ==> CreditKills(Register(scores, id), id, n)[id] == n
    ensures n == MaxInt32 + 1 ==> CreditKills(Register(scores, id), id, n)[id] == MinInt32
  {
    CreditsAccumulate(Register(scores, id), id, n);
    if n == MaxInt32 + 1 {
      CreditsAccumulate(Register(scores, id), id, n - 1);
      CreditKillsLast(Register(scores, id), id, n - 1);
    }
  }

  /** The last of `n + 1` credits is one `CreditKill` after the first `n`. */
  lemma {:induction false} CreditKillsLast(scores: Scores, id: int, n: nat)
    requires id in scores
    ensures CreditKills(scores, id, n + 1) == CreditKill(CreditKills(scores, id, n), id)
    decreases n
  {
    if n > 0 {
      CreditKillsLast(CreditKill(scores, id), id, n - 1);
    }
  }

  /** `order` is an order in which `foreach` can visit the dictionary: every key exactly once. */
  predicate IsEnumeration(order: seq<int>, scores: Scores) {
    && (forall i :: 0 <= i < |order| ==> order[i] in scores)
    && (forall k :: k in scores ==> k in order)
    && (forall i, j :: 0 <= i < j < |order| ==> order[i] != order[j])
  }

  /**
    The loop of `PlayerWon` as written: `max` starts as a key, but the
    update stores a SCORE into it, which the next comparison then uses as a
    key (`scores[max]`), throwing when no such key exists.
   */
  function PlayerWonLoop(scores: Scores, order: seq<int>, max: int): (r: Result<int>)
    requires forall i :: 0 <= i < |order| ==> order[i] in scores
    ensures r.Err? ==> r.fault.KeyNotFound? && r.fault.key !in scores
    ensures r.Ok? ==> r.value == max || exists i :: 0 <= i < |order| && r.value == scores[order[i]]
    ensures r.Ok? && r.value != max ==> max in scores && exists i :: 0 <= i < |order| && scores[order[i]] > scores[max]
    decreases |order|
  {
    if |order| == 0 then Ok(max)
    else
      var score := scores[order[0]];
      if max !in scores then Err(KeyNotFound(max))
      else if score > scores[max] then PlayerWonLoop(scores, order[1..], score)
      else PlayerWonLoop(scores, order[1..], max)
  }

  /** `PlayerWon()` as written, for the dictionary visited in `order`. */
  function PlayerWon(scores: Scores, order: seq<int>, player: int): (r: Result<bool>)
    requires IsEnumeration(order, scores)
    ensures r.Err? ==> r.fault.KeyNotFound? && r.fault.key !in scores
    ensures r == Ok(false) ==> player in scores && exists k :: k in scores && scores[k] > scores[player]
  {
    match PlayerWonLoop(scores, order, player)
    case Ok(max) => Ok(max == player)
    case Err(f) => Err(f)
  }

  lemma {:induction false} LoopKeepsUnbeatenPlayer(scores: Scores, order: seq<int>, player: int)
    requires player in scores
    requires forall i :: 0 <= i < |order| ==> order[i] in scores
    requires forall k :: k in scores ==> scores[k] <= scores[player]
    ensures PlayerWonLoop(scores, order, player) == Ok(player)
    decreases |order|
  {
    if |order| > 0 {
      LoopKeepsUnbeatenPlayer(scores, order[1..], player);
    }
  }

  /** The safe case: when no score exceeds the player's, `PlayerWon` reports a
      win, whatever order the dictionary is visited in. */
  lemma PlayerWonWhenUnbeaten(scores: Scores, order: seq<int>, player: int)
    requires IsEnumeration(order, scores)
    requires player in scores
    requires forall k :: k in scores ==> scores[k] <= scores[player]
    ensures PlayerWon(scores, order, player) == Ok(true)
  {
    LoopKeepsUnbeatenPlayer(scores, order, player);
  }

  /** Player 1 has no kills and player 2 has one, yet `PlayerWon` reports a
      win: the score 1 stored into `max` equals the player's id. */
  lemma PlayerWonMisreportsVictory()
    ensures IsEnumeration([1, 2], map[1 := 0, 2 := 1])
    ensures map[1 := 0, 2 := 1][2] > map[1 := 0, 2 := 1][1]
    ensures PlayerWon(map[1 := 0, 2 := 1], [1, 2], 1) == Ok(true)
  {
  }

  /** After the score 5 is stored into `max`, the next comparison looks up key 5 and throws. */
  lemma PlayerWonThrows()
    ensures IsEnumeration([1, 2, 3], map[1 := 0, 2 := 5, 3 := 0])
    ensures PlayerWon(map[1 := 0, 2 := 5, 3 := 0], [1, 2, 3], 1) == Err(KeyNotFound(5))
  {
  }

  /** The evidently intended loop: `max` remembers the KEY of the best score so far. */
  function LeaderLoop(scores: Scores, order: seq<int>, max: int): (leader: int)
    requires max in scores
    requires forall i :: 0 <= i < |order| ==> order[i] in scores
    ensures leader in scores && scores[leader] >= scores[max]
    ensures leader == max || scores[leader] > scores[max]
    ensures forall i :: 0 <= i < |order| ==> scores[order[i]] <= scores[leader]
    decreases |order|
  {
    if |order| == 0 then max
    else
      var key := order[0];
      if scores[key] > scores[max] then LeaderLoop(scores, order[1..], key)
      else LeaderLoop(scores, order[1..], max)
  }

  /** The corrected `PlayerWon`: the player's id is still the leader after the visit. */
  function PlayerWonIntended(scores: Scores, order: seq<int>, player: int): (won: bool)
    requires IsEnumeration(order, scores)
    requires player in scores
    ensures won ==> forall i :: 0 <= i < |order| ==> scores[order[i]] <= scores[player]
    ensures !won ==> exists k :: k in scores && scores[k] > scores[player]
  {
    LeaderLoop(scores, order, player) == player
  }

  /** The corrected verdict is a win exactly when no score exceeds the
      player's, in every visiting order. */
  lemma PlayerWonIntendedIsMaximum(scores: Scores, order: seq<int>, player: int)
    requires IsEnumeration(order, scores)
    requires player in scores
    ensures PlayerWonIntended(scores, order, player) <==> forall k :: k in scores ==> scores[k] <= scores[player]
  {
    var leader := LeaderLoop(scores, order, player);
    if leader == player {
      forall k | k in scores
        ensures scores[k] <= scores[player]
      {
        var i :| 0 <= i < |order| && order[i] == k;
      }
    }
  }
}

=== FILE: spawning.dfy ===
/**
  Ids, spawning and round set-up: `NextWorldId`, `NextItemName`,
  `SpawnActor`, `InitActor`, `SpawnItem`, `DeferredSpawnItem`,
  `SinglePlayerInit` and `MultiplayerInit`.
 */
module Spawning {
  import opened Outcomes
  import opened CSharpInt
  import opened IdCounter
  import opened ScoreBoard
  import opened Actors
  import opened State

  // ---------------------------------------------------------------------
  // The shared id counter.

  /** `NextWorldId()`: the current counter value; the counter then increments. */
  function NextWorldId(s: ArenaState): (r: (int, ArenaState))
    requires IsInt32(s.nextId)
    ensures r.0 == s.nextId && IsInt32(r.1.nextId) && r.1.nextId != s.nextId
    ensures r.1.nextId == Inc32(s.nextId)
    ensures r.1.(nextId := s.nextId) == s
  {
    (s.nextId, s.(nextId := Inc32(s.nextId)))
  }

  /** `NextItemName()`: `"Item_"` and the current counter value; the counter then increments. */
  function NextItemName(s: ArenaState): (r: (string, ArenaState))
    requires IsInt32(s.nextId)
    ensures r.0 == ItemName(s.nextId) && IsInt32(r.1.nextId) && r.1.nextId != s.nextId
    ensures r.1.nextId == Inc32(s.nextId)
    ensures r.1.(nextId := s.nextId) == s
  {
    (ItemName(s.nextId), s.(nextId := Inc32(s.nextId)))
  }

  /** Which of the two allocators a caller uses. */
  datatype Allocator = WorldIdAllocator | ItemNameAllocator

  /** What an allocation hands out. */
  datatype Token = WorldIdToken(id: int) | ItemNameToken(name: string)

  /** The token the allocator `call` makes of the counter value `n`. */
  function TokenFor(call: Allocator, n: int): Token {
    if call == WorldIdAllocator then WorldIdToken(n) else ItemNameToken(ItemName(n))
  }

  /** One call to either allocator. */
  function Allocate(s: ArenaState, call: Allocator): (r: (Token, ArenaState))
    requires IsInt32(s.nextId)
    ensures r.0 == TokenFor(call, s.nextId) && r.1.nextId == Inc32(s.nextId)
  {
    if call == WorldIdAllocator then
      var (id, s1) := NextWorldId(s); (WorldIdToken(id), s1)
    else
      var (name, s1) := NextItemName(s); (ItemNameToken(name), s1)
  }

  /** The tokens a series of calls to the two allocators hands out, in order. */
  function AllocateAll(s: ArenaState, calls: seq<Allocator>): (r: (seq<Token>, ArenaState))
    requires IsInt32(s.nextId)
    ensures |r.0| == |calls|
    decreases |calls|
  {
    if |calls| == 0 then ([], s)
    else
      var (token, s1) := Allocate(s, calls[0]);
      var (rest, s2) := AllocateAll(s1, calls[1..]);
      ([token] + rest, s2)
  }

  /** The two allocators draw from one counter: call `i` gets the `i`-th issued value. */
  lemma {:induction false} AllocateAllDrawsIssued(s: ArenaState, calls: seq<Allocator>)
    requires IsInt32(s.nextId)
    ensures forall i :: 0 <= i < |calls| ==>
      AllocateAll(s, calls).0[i] == TokenFor(calls[i], Issued(s.nextId, |calls|)[i])
    decreases |calls|
  {
    if |calls| > 0 {
      var s1 := Allocate(s, calls[0]).1;
      AllocateAllDrawsIssued(s1, calls[1..]);
      var tokens := AllocateAll(s, calls).0;
      var ids := Issued(s.nextId, |calls|);
      assert ids == [s.nextId] + Issued(s1.nextId, |calls| - 1);
      forall i | 0 <= i < |calls|
        ensures tokens[i] == TokenFor(calls[i], ids[i])
      {
        if i > 0 {
          assert tokens[i] == AllocateAll(s1, calls[1..]).0[i - 1];
          assert calls[i] == calls[1..][i - 1];
        }
      }
    }
  }

  /** From `nextId = int.MinValue`, the first 2^32 ids and item names handed
      out are pairwise distinct, whichever allocator each call uses. */
  lemma AllocationsDistinct(s: ArenaState, calls: seq<Allocator>)
    requires s.nextId == FirstId
    requires |calls| <= 0x1_0000_0000
    ensures forall i, j :: 0 <= i < j < |calls| ==> AllocateAll(s, calls).0[i] != AllocateAll(s, calls).0[j]
  {
    AllocateAllDrawsIssued(s, calls);
    IssuedFromFirstIncreasing(|calls|);
    var tokens := AllocateAll(s, calls).0;
    var ids := Issued(FirstId, |calls|);
    forall i, j | 0 <= i < j < |calls|
      ensures tokens[i] != tokens[j]
    {
      assert ids[i] < ids[j];
      ItemNameInjective(ids[i], ids[j]);
    }
  }

  // ---------------------------------------------------------------------
  // Spawn points.

  /** `RandomActorSpawn()` / `RandomItemSpawn()`: `pool[rand.Next(pool.Count)]`,
      with the random draw `pick` supplied by the caller. */
  function SpawnPoint(pool: seq<Position>, pick: nat): (pos: Position)
    requires pick < |pool|
    ensures pos in pool
  {
    pool[pick]
  }

  /** One drawn spawn point per pick, in order. */
  function SpawnPoints(pool: seq<Position>, picks: seq<nat>): (ps: seq<Position>)
    requires forall i :: 0 <= i < |picks| ==> picks[i] < |pool|
    ensures |ps| == |picks|
    ensures forall i :: 0 <= i < |picks| ==> ps[i] == pool[picks[i]]
  {
    seq(|picks|, i requires 0 <= i < |picks| => SpawnPoint(pool, picks[i]))
  }

  // ---------------------------------------------------------------------
  // Actors.

  /** `SpawnActor(brain, id)` at `pos`, the spawn point `RandomActorSpawn()`
      drew: a new actor joins the end of the list. */
  function SpawnActor(ro: Roster, brain: Brain, id: int, pos: Position): (r: Roster)
    ensures r.actors == ro.actors + [NewActor(brain, id, pos)]
    ensures r.(actors := ro.actors) == ro
  {
    ro.(actors := ro.actors + [NewActor(brain, id, pos)])
  }

  /** A spawn adds exactly one live actor, and keeps the roster valid when the
      id already has a score entry. */
  lemma SpawnActorAddsLiveActor(ro: Roster, brain: Brain, id: int, pos: Position)
    ensures LiveCount(SpawnActor(ro, brain, id, pos).actors) == LiveCount(ro.actors) + 1
    ensures RosterValid(ro) && id in ro.scores ==> RosterValid(SpawnActor(ro, brain, id, pos))
  {
    LiveCountAppend(ro.actors, NewActor(brain, id, pos));
    if RosterValid(ro) && id in ro.scores {
      AppendKeepsValid(ro, SpawnActor(ro, brain, id, pos), [NewActor(brain, id, pos)]);
    }
  }

  /** The brain `InitActor(brain, id)` spawns with: online, the local player's
      own id always gets the `Player1` brain. */
  function InitBrain(sess: Session, playerWorldId: int, brain: Brain, id: int): Brain {
    if sess.netActive && id == playerWorldId then Player1 else brain
  }

  /**
    `InitActor(brain, id)`: registers a zero score for `id` (the source's
    `Dictionary.Add` throws on a duplicate) and spawns the actor at `pos`.
    Offline, a `Player1` actor's id becomes `playerWorldId`.
   */
  function InitActor(ro: Roster, sess: Session, brain: Brain, id: int, pos: Position): (r: Roster)
    requires id !in ro.scores
    ensures r.scores == Register(ro.scores, id)
    ensures r.actors == ro.actors + [NewActor(InitBrain(sess, ro.playerWorldId, brain, id), id, pos)]
    ensures r.playerWorldId == (if !sess.netActive && brain == Player1 then id else ro.playerWorldId)
  {
    var registered := ro.(scores := Register(ro.scores, id));
    if !sess.netActive then
      var spawned := SpawnActor(registered, brain, id, pos);
      if brain == Player1 then spawned.(playerWorldId := id) else spawned
    else if id == ro.playerWorldId then SpawnActor(registered, Player1, id, pos)
    else SpawnActor(registered, brain, id, pos)
  }

  /** Enrolling an actor keeps the roster valid: its id is registered with it. */
  lemma InitActorKeepsValid(ro: Roster, sess: Session, brain: Brain, id: int, pos: Position)
    requires id !in ro.scores && RosterValid(ro)
    ensures RosterValid(InitActor(ro, sess, brain, id, pos))
  {
    var r := InitActor(ro, sess, brain, id, pos);
    AppendKeepsValid(ro, r, [r.actors[|ro.actors|]]);
  }

  // ---------------------------------------------------------------------
  // Items.

  /** Whether this instance originates item spawns: offline, or as the server. */
  predicate SpawnsItems(sess: Session) {
    !sess.netActive || sess.isServer
  }

  /**
    `SpawnItem(type)`: a networked client spawns nothing. Otherwise the item
    appears at the spawn point drawn with `pick`; the server also names it
    from the id counter and broadcasts a `DeferredSpawnItem` with the same
    type, name and position.
   */
  function SpawnItem(s: ArenaState, sess: Session, kind: ItemType, pick: nat): (r: ArenaState)
    requires IsInt32(s.nextId)
    requires SpawnsItems(sess) ==> pick < |s.setup.itemSpawnPoints|
    ensures !SpawnsItems(sess) ==> r == s
    ensures SpawnsItems(sess) ==> |r.items| == |s.items| + 1 && r.items[..|s.items|] == s.items
    ensures SpawnsItems(sess) ==> r.items[|s.items|].kind == kind && r.items[|s.items|].pos == s.setup.itemSpawnPoints[pick]
    ensures SpawnsItems(sess) ==> r.items[|s.items|].name == (if sess.isServer then Some(ItemName(s.nextId)) else None)
    ensures r.nextId == (if SpawnsItems(sess) && sess.isServer then Inc32(s.nextId) else s.nextId)
    ensures IsInt32(r.nextId) && Extends(s, r)
    ensures r.setup == s.setup && r.clock == s.clock && r.roster == s.roster
  {
    if sess.netActive && !sess.isServer then s
    else
      var pos := SpawnPoint(s.setup.itemSpawnPoints, pick);
      if sess.isServer then
        var (name, s1) := NextItemName(s);
        Emit(s1.(items := s1.items + [Item(kind, Some(name), pos)]), Rpc(DeferredSpawnItemCall(kind, name, pos)))
      else s.(items := s.items + [Item(kind, None, pos)])
  }

  /** Offline and not the server, an item spawn neither consumes an id nor broadcasts anything. */
  lemma SpawnItemOffline(s: ArenaState, sess: Session, kind: ItemType, pick: nat)
    requires IsInt32(s.nextId) && !sess.netActive && !sess.isServer && pick < |s.setup.itemSpawnPoints|
    ensures var r := SpawnItem(s, sess, kind, pick);
      r.nextId == s.nextId && r.effects == s.effects && r.items[|s.items|].name.None?
  {
  }

  /** `DeferredSpawnItem(type, name, x, y, z)`: a peer creates the item the server announced. */
  function DeferredSpawnItem(s: ArenaState, kind: ItemType, name: string, pos: Position): (r: ArenaState)
    ensures |r.items| == |s.items| + 1 && r.items[..|s.items|] == s.items
    ensures r.items[|s.items|] == Item(kind, Some(name), pos)
    ensures r.(items := s.items) == s
  {
    s.(items := s.items + [Item(kind, Some(name), pos)])
  }

  /**
    On the server, a spawn takes the next counter value for the item's name
    and sends exactly one broadcast; every peer that handles that broadcast
    creates an item equal to the server's own: same type, name and position.
   */
  lemma SpawnItemReplicates(s: ArenaState, sess: Session, kind: ItemType, pick: nat, peer: ArenaState)
    requires IsInt32(s.nextId) && sess.isServer && pick < |s.setup.itemSpawnPoints|
    ensures var r := SpawnItem(s, sess, kind, pick);
      && r.nextId == Inc32(s.nextId)
      && r.items[|s.items|].name == Some(ItemName(s.nextId))
      && |NewEffects(s, r)| == 1 && NewEffects(s, r)[0].Rpc? && NewEffects(s, r)[0].msg.DeferredSpawnItemCall?
      && var m := NewEffects(s, r)[0].msg;
         DeferredSpawnItem(peer, m.kind, m.name, m.pos).items == peer.items + [r.items[|s.items|]]
  {
    var r := SpawnItem(s, sess, kind, pick);
    var pos := s.setup.itemSpawnPoints[pick];
    assert NewEffects(s, r) == [Rpc(DeferredSpawnItemCall(kind, ItemName(s.nextId), pos))];
  }

  // ---------------------------------------------------------------------
  // Round set-up.

  /** The arena after `Init` has created empty lists and `InitSpawnPoints` has
      collected the two spawn pools: clock idle, `nextId` at int.MinValue. */
  function Fresh(setup: Setup): (s: ArenaState)
    ensures Valid(s) && s.roster.actors == [] && s.items == [] && s.roster.scores == map[] && s.effects == []
    ensures !s.clock.roundTimerActive && !s.clock.scorePresented && s.nextId == FirstId
  {
    ArenaState(setup, Clock(0, 0, false, false), Roster([], map[], 0), [], FirstId, [])
  }

  /** The clock set to a full round and started. */
  function StartClock(s: ArenaState): (r: ArenaState)
    ensures r.clock.roundTimerActive && r.clock.roundTimeRemaining == RoundDuration
    ensures r.clock.scorePresented == s.clock.scorePresented && r.clock.secondCounter == s.clock.secondCounter
    ensures r.(clock := s.clock) == s
  {
    s.(clock := s.clock.(roundTimeRemaining := RoundDuration, roundTimerActive := true))
  }

  /** `InitActor(brain, NextWorldId())` on the whole arena. */
  function InitNextActor(s: ArenaState, sess: Session, brain: Brain, pos: Position): (r: ArenaState)
    requires IsInt32(s.nextId) && s.nextId !in s.roster.scores
    ensures r.roster == InitActor(s.roster, sess, brain, s.nextId, pos)
    ensures r.nextId == Inc32(s.nextId)
    ensures r.setup == s.setup && r.clock == s.clock && r.items == s.items && r.effects == s.effects
  {
    var (id, s1) := NextWorldId(s);
    s1.(roster := InitActor(s1.roster, sess, brain, id, pos))
  }

  /**
    `SinglePlayerInit()`: two items, the local player and one AI, then the
    clock starts. `itemPicks` and `actorPicks` are the random draws.
   */
  function SinglePlayerInit(s: ArenaState, sess: Session, itemPicks: (nat, nat), actorPicks: (nat, nat)): (r: ArenaState)
    requires IsInt32(s.nextId) && s.roster.scores == map[]
    requires SpawnsItems(sess) ==> itemPicks.0 < |s.setup.itemSpawnPoints| && itemPicks.1 < |s.setup.itemSpawnPoints|
    requires actorPicks.0 < |s.setup.actorSpawnPoints| && actorPicks.1 < |s.setup.actorSpawnPoints|
    ensures r.setup == s.setup && r.clock.roundTimerActive
  {
    var s1 := SpawnItem(s, sess, HealthPack, itemPicks.0);
    var s2 := SpawnItem(s1, sess, AmmoPack, itemPicks.1);
    var s3 := InitNextActor(s2, sess, Player1, SpawnPoint(s.setup.actorSpawnPoints, actorPicks.0));
    var s4 := InitNextActor(s3, sess, Ai, SpawnPoint(s.setup.actorSpawnPoints, actorPicks.1));
    StartClock(s4)
  }

  /** The two enrolments of single player, on the roster: the player and an
      AI with consecutive ids `id` and `Inc32(id)`. */
  lemma SinglePlayerRoster(ro: Roster, sess: Session, id: int, actorSpawns: (Position, Position))
    requires RosterValid(ro) && ro.scores == map[] && IsInt32(id) && !sess.netActive
    ensures var r := InitActor(InitActor(ro, sess, Player1, id, actorSpawns.0), sess, Ai, Inc32(id), actorSpawns.1);
      && RosterValid(r)
      && r.actors == ro.actors + [NewActor(Player1, id, actorSpawns.0), NewActor(Ai, Inc32(id), actorSpawns.1)]
      && r.playerWorldId == id && id != Inc32(id)
      && r.scores == map[id := 0, Inc32(id) := 0]
  {
    var r1 := InitActor(ro, sess, Player1, id, actorSpawns.0);
    InitActorKeepsValid(ro, sess, Player1, id, actorSpawns.0);
    InitActorKeepsValid(r1, sess, Ai, Inc32(id), actorSpawns.1);
    var player := NewActor(Player1, id, actorSpawns.0);
    var ai := NewActor(Ai, Inc32(id), actorSpawns.1);
    AppendAssociates(ro.actors, [player], [ai]);
    assert [player] + [ai] == [player, ai];
  }

  /**
    The two item spawns that open a round, on an instance that spawns items:
    a health pack then an ammo pack at their drawn points. The server names
    them from the next two counter values and broadcasts both, in order;
    otherwise they keep the default name, use no id and send nothing.
   */
  lemma TwoItemSpawns(s: ArenaState, sess: Session, itemPicks: (nat, nat))
    requires IsInt32(s.nextId) && SpawnsItems(sess)
    requires itemPicks.0 < |s.setup.itemSpawnPoints| && itemPicks.1 < |s.setup.itemSpawnPoints|
    ensures var r := SpawnItem(SpawnItem(s, sess, HealthPack, itemPicks.0), sess, AmmoPack, itemPicks.1);
      var p0 := s.setup.itemSpawnPoints[itemPicks.0];
      var p1 := s.setup.itemSpawnPoints[itemPicks.1];
      var n := s.nextId;
      && r.roster == s.roster && r.setup == s.setup && r.clock == s.clock
      && (sess.isServer ==>
            && r.items == s.items + [Item(HealthPack, Some(ItemName(n)), p0), Item(AmmoPack, Some(ItemName(Inc32(n))), p1)]
            && r.effects == s.effects + [Rpc(DeferredSpawnItemCall(HealthPack, ItemName(n), p0)), Rpc(DeferredSpawnItemCall(AmmoPack, ItemName(Inc32(n)), p1))]
            && r.nextId == Inc32(Inc32(n)))
      && (!sess.isServer ==>
            && r.items == s.items + [Item(HealthPack, None, p0), Item(AmmoPack, None, p1)]
            && r.effects == s.effects
            && r.nextId == n)
  {
    var s1 := SpawnItem(s, sess, HealthPack, itemPicks.0);
    var r := SpawnItem(s1, sess, AmmoPack, itemPicks.1);
    var a := s1.items[|s.items|];
    var b := r.items[|s1.items|];
    assert s1.items == s.items + [a];
    assert r.items == s1.items + [b];
    AppendAssociates(s.items, [a], [b]);
    assert [a] + [b] == [a, b];
    if sess.isServer {
      var e0 := Rpc(DeferredSpawnItemCall(HealthPack, ItemName(s.nextId), s.setup.itemSpawnPoints[itemPicks.0]));
      var e1 := Rpc(DeferredSpawnItemCall(AmmoPack, ItemName(s1.nextId), s.setup.itemSpawnPoints[itemPicks.1]));
      assert s1.effects == s.effects + [e0];
      assert r.effects == s1.effects + [e1];
      AppendAssociates(s.effects, [e0], [e1]);
      assert [e0] + [e1] == [e0, e1];
    }
  }

  /**
    Single player, with no network session: the two items are spawned, the
    local player and one AI enrol with two distinct ids and zero scores, the
    player's id is `playerWorldId`, and a full round is running. When the
    session reports itself as the server, the items take the first two
    counter values as names and are broadcast, so the player's id comes two
    draws later; otherwise nothing is broadcast and the player takes the
    first value.
   */
  lemma SinglePlayerInitSetsUpRound(s: ArenaState, sess: Session, itemPicks: (nat, nat), actorPicks: (nat, nat))
    requires Valid(s) && s.roster.scores == map[] && !sess.netActive
    requires itemPicks.0 < |s.setup.itemSpawnPoints| && itemPicks.1 < |s.setup.itemSpawnPoints|
    requires actorPicks.0 < |s.setup.actorSpawnPoints| && actorPicks.1 < |s.setup.actorSpawnPoints|
    ensures var r := SinglePlayerInit(s, sess, itemPicks, actorPicks);
      var items := s.setup.itemSpawnPoints;
      var spawns := s.setup.actorSpawnPoints;
      var n := s.nextId;
      var id := if sess.isServer then Inc32(Inc32(n)) else n;
      && Valid(r)
      && r.roster.actors == s.roster.actors + [NewActor(Player1, id, spawns[actorPicks.0]), NewActor(Ai, Inc32(id), spawns[actorPicks.1])]
      && r.roster.playerWorldId == id
      && r.roster.scores == map[id := 0, Inc32(id) := 0]
      && r.nextId == Inc32(Inc32(id))
      && r.clock.roundTimerActive && r.clock.roundTimeRemaining == RoundDuration
      && (sess.isServer ==>
            && r.items == s.items + [Item(HealthPack, Some(ItemName(n)), items[itemPicks.0]), Item(AmmoPack, Some(ItemName(Inc32(n))), items[itemPicks.1])]
            && r.effects == s.effects + [Rpc(DeferredSpawnItemCall(HealthPack, ItemName(n), items[itemPicks.0])),
                                         Rpc(DeferredSpawnItemCall(AmmoPack, ItemName(Inc32(n)), items[itemPicks.1]))])
      && (!sess.isServer ==>
            && r.items == s.items + [Item(HealthPack, None, items[itemPicks.0]), Item(AmmoPack, None, items[itemPicks.1])]
            && r.effects == s.effects)
  {
    TwoItemSpawns(s, sess, itemPicks);
    var s2 := SpawnItem(SpawnItem(s, sess, HealthPack, itemPicks.0), sess, AmmoPack, itemPicks.1);
    var spawns := s.setup.actorSpawnPoints;
    SinglePlayerRoster(s.roster, sess, s2.nextId, (spawns[actorPicks.0], spawns[actorPicks.1]));
  }

  /** No id appears twice. */
  predicate Distinct(ids: seq<int>) {
    forall i, j :: 0 <= i < j < |ids| ==> ids[i] != ids[j]
  }

  /** The scores after registering every id of `peers`, in order. */
  function RegisterAll(scores: Scores, peers: seq<int>): (r: Scores)
    requires Distinct(peers)
    requires forall i :: 0 <= i < |peers| ==> peers[i] !in scores
    ensures forall k :: k in r <==> k in scores || k in peers
    ensures forall k :: k in scores ==> r[k] == scores[k]
    ensures forall k :: k in r && k !in scores ==> r[k] == 0
    decreases |peers|
  {
    if |peers| == 0 then scores
    else
      var first := Register(scores, peers[0]);
      assert forall i :: 0 <= i < |peers[1..]| ==> peers[1..][i] != peers[0] by {
        forall i | 0 <= i < |peers[1..]|
          ensures peers[1..][i] != peers[0]
        {
          assert peers[1..][i] == peers[i + 1];
        }
      }
      assert forall k :: k in peers <==> k == peers[0] || k in peers[1..] by {
        assert peers == [peers[0]] + peers[1..];
      }
      RegisterAll(first, peers[1..])
  }

  /** The actors `InitRoster` spawns, one per participant, in roster order. */
  function RosterActors(sess: Session, playerWorldId: int, peers: seq<int>, spawns: seq<Position>): (r: seq<Actor>)
    requires |spawns| == |peers|
    ensures |r| == |peers|
    decreases |peers|
  {
    if |peers| == 0 then [] else
      [NewActor(InitBrain(sess, playerWorldId, Remote, peers[0]), peers[0], spawns[0])]
      + RosterActors(sess, playerWorldId, peers[1..], spawns[1..])
  }

  /** Participant `i` is spawned with its own id, position and brain. */
  lemma {:induction false} RosterActorsAt(sess: Session, playerWorldId: int, peers: seq<int>, spawns: seq<Position>)
    requires |spawns| == |peers|
    ensures forall i :: 0 <= i < |peers| ==>
      RosterActors(sess, playerWorldId, peers, spawns)[i]
        == NewActor(InitBrain(sess, playerWorldId, Remote, peers[i]), peers[i], spawns[i])
    decreases |peers|
  {
    if |peers| > 0 {
      RosterActorsAt(sess, playerWorldId, peers[1..], spawns[1..]);
    }
  }

  lemma AppendAssociates<T>(a: seq<T>, b: seq<T>, c: seq<T>)
    ensures (a + b) + c == a + (b + c)
  {
  }

  /** The `foreach` of `MultiplayerInit`: `InitActor(Remote, id)` for each
      participant, the `i`-th spawning at `spawns[i]`. One enrolment at a
      time, it registers all of them and appends all of their actors. */
  function InitRoster(ro: Roster, sess: Session, peers: seq<int>, spawns: seq<Position>): (r: Roster)
    requires Distinct(peers) && |spawns| == |peers|
    requires forall i :: 0 <= i < |peers| ==> peers[i] !in ro.scores
    ensures r.scores == RegisterAll(ro.scores, peers)
    ensures r.actors == ro.actors + RosterActors(sess, ro.playerWorldId, peers, spawns)
    ensures r.playerWorldId == ro.playerWorldId
    decreases |peers|
  {
    if |peers| == 0 then ro
    else
      var r1 := InitActor(ro, sess, Remote, peers[0], spawns[0]);
      var r := InitRoster(r1, sess, peers[1..], spawns[1..]);
      var a0 := NewActor(InitBrain(sess, ro.playerWorldId, Remote, peers[0]), peers[0], spawns[0]);
      AppendAssociates(ro.actors, [a0], RosterActors(sess, ro.playerWorldId, peers[1..], spawns[1..]));
      r
  }

  /** Every participant gets a zero score and spawns after the existing
      actors, in roster order, with its id and the brain `InitBrain` gives a
      `Remote` participant; the roster stays valid. */
  lemma InitRosterRegistersRoster(ro: Roster, sess: Session, peers: seq<int>, spawns: seq<Position>)
    requires Distinct(peers) && |spawns| == |peers|
    requires forall i :: 0 <= i < |peers| ==> peers[i] !in ro.scores
    ensures var r := InitRoster(ro, sess, peers, spawns);
      && (forall k :: k in r.scores <==> k in ro.scores || k in peers)
      && (forall k :: k in ro.scores ==> r.scores[k] == ro.scores[k])
      && (forall i :: 0 <= i < |peers| ==> r.scores[peers[i]] == 0)
      && |r.actors| == |ro.actors| + |peers| && r.actors[..|ro.actors|] == ro.actors
      && (forall i :: 0 <= i < |peers| ==>
           && r.actors[|ro.actors| + i].worldId == peers[i]
           && r.actors[|ro.actors| + i].brain == InitBrain(sess, ro.playerWorldId, Remote, peers[i]))
      && (RosterValid(ro) ==> RosterValid(r))
  {
    var r := InitRoster(ro, sess, peers, spawns);
    var added := RosterActors(sess, ro.playerWorldId, peers, spawns);
    RosterActorsAt(sess, ro.playerWorldId, peers, spawns);
    assert r.actors == ro.actors + added;
    forall i | 0 <= i < |peers|
      ensures r.actors[|ro.actors| + i] == added[i]
    {
    }
    if RosterValid(ro) {
      AppendKeepsValid(ro, r, added);
    }
  }

  /**
    `MultiplayerInit()`: `playerWorldId` is this peer's id; every participant
    is registered and spawned; two items are spawned; only the server
    starts the clock.
   */
  function MultiplayerInit(s: ArenaState, sess: Session, selfPeerId: int, peers: seq<int>,
                           actorPicks: seq<nat>, itemPicks: (nat, nat)): (r: ArenaState)
    requires IsInt32(s.nextId) && s.roster.scores == map[]
    requires Distinct(peers) && |actorPicks| == |peers|
    requires forall i :: 0 <= i < |actorPicks| ==> actorPicks[i] < |s.setup.actorSpawnPoints|
    requires SpawnsItems(sess) ==> itemPicks.0 < |s.setup.itemSpawnPoints| && itemPicks.1 < |s.setup.itemSpawnPoints|
    ensures r.setup == s.setup
    ensures r.roster == InitRoster(s.roster.(playerWorldId := selfPeerId), sess, peers, SpawnPoints(s.setup.actorSpawnPoints, actorPicks))
    ensures r.clock.roundTimerActive <==> s.clock.roundTimerActive || sess.isServer
    ensures IsInt32(r.nextId)
  {
    var spawns := SpawnPoints(s.setup.actorSpawnPoints, actorPicks);
    var s1 := s.(roster := InitRoster(s.roster.(playerWorldId := selfPeerId), sess, peers, spawns));
    var s2 := SpawnItem(s1, sess, HealthPack, itemPicks.0);
    var s3 := SpawnItem(s2, sess, AmmoPack, itemPicks.1);
    if sess.isServer then StartClock(s3) else s3
  }

  /**
    Online: `playerWorldId` is this peer's id, exactly the participants hold
    (zero) scores, each spawns with its id, the local participant alone with
    the `Player1` brain and the rest `Remote`, and the invariant holds.
   */
  lemma MultiplayerInitSetsUpRound(s: ArenaState, sess: Session, selfPeerId: int, peers: seq<int>,
                                   actorPicks: seq<nat>, itemPicks: (nat, nat))
    requires sess.netActive
    requires Valid(s) && s.roster.scores == map[]
    requires Distinct(peers) && |actorPicks| == |peers|
    requires forall i :: 0 <= i < |actorPicks| ==> actorPicks[i] < |s.setup.actorSpawnPoints|
    requires SpawnsItems(sess) ==> itemPicks.0 < |s.setup.itemSpawnPoints| && itemPicks.1 < |s.setup.itemSpawnPoints|
    ensures var r := MultiplayerInit(s, sess, selfPeerId, peers, actorPicks, itemPicks);
      Valid(r) && EnrolledOnline(r.roster, s.roster.actors, selfPeerId, peers)
  {
    var ro := s.roster.(playerWorldId := selfPeerId);
    var spawns := SpawnPoints(s.setup.actorSpawnPoints, actorPicks);
    var r := MultiplayerInit(s, sess, selfPeerId, peers, actorPicks, itemPicks);
    assert r.roster == InitRoster(ro, sess, peers, spawns) && IsInt32(r.nextId);
    InitRosterOnline(ro, sess, peers, spawns);
  }

  /** The roster after online enrolment of `peers` behind the actors
      `before`: the player is `self`, exactly the participants hold (zero)
      scores, each spawns with its id, the local participant alone with the
      `Player1` brain, and every actor is registered. */
  ghost predicate EnrolledOnline(r: Roster, before: seq<Actor>, self: int, peers: seq<int>) {
    && RosterValid(r)
    && r.playerWorldId == self
    && (forall k :: k in r.scores <==> k in peers)
    && (forall i :: 0 <= i < |peers| ==> peers[i] in r.scores && r.scores[peers[i]] == 0)
    && |r.actors| == |before| + |peers|
    && forall i :: 0 <= i < |peers| ==>
         && r.actors[|before| + i].worldId == peers[i]
         && (r.actors[|before| + i].brain == Player1 <==> peers[i] == self)
  }

  /** The roster part of `MultiplayerInitSetsUpRound`, from an empty score table. */
  lemma InitRosterOnline(ro: Roster, sess: Session, peers: seq<int>, spawns: seq<Position>)
    requires sess.netActive && RosterValid(ro) && ro.scores == map[]
    requires Distinct(peers) && |spawns| == |peers|
    ensures EnrolledOnline(InitRoster(ro, sess, peers, spawns), ro.actors, ro.playerWorldId, peers)
  {
    InitRosterRegistersRoster(ro, sess, peers, spawns);
  }
}

=== FILE: state.dfy ===
/**
  The state of the Arena game mode (`Arena` in Util/Arena.cs) as an
  immutable record, and what it exchanges with its surroundings.

  Engine services become parameters: `Session.IsServer()` and
  `Session.NetActive()` are a `Session` value, and every `Rpc(...)` call or
  menu request to the session is appended to the `effects` outbox.
  Time is counted in whole milliseconds.
 */
module State {
  import opened Outcomes
  import opened CSharpInt
  import opened ScoreBoard
  import opened Actors

  /** Milliseconds in a second. */
  const Second: nat := 1000
  /** `RoundDuration = 300f` seconds. */
  const RoundDuration: int := 300 * Second
  /** `ScoreDuration = 5f` seconds. */
  const ScoreDuration: int := 5 * Second

  /** What the arena asks of `Session`: `IsServer()` and `NetActive()`. */
  datatype Session = Session(isServer: bool, netActive: bool)

  /** `Item.Types`. */
  datatype ItemType = HealthPack | AmmoPack

  /** An item node the arena added; `name` None is the engine's default name. */
  datatype Item = Item(kind: ItemType, name: Option<string>, pos: Position)

  /** `Menu.Menus` values the arena switches to. */
  datatype Menu = HUD | Lobby

  /** The remote procedure calls the arena broadcasts with `Rpc(nameof(...), ...)`. */
  datatype Message =
    | SyncTimeCall(newTime: int)
    | PresentScoreCall
    | RoundOverCall
    | DeferredSpawnItemCall(kind: ItemType, name: string, pos: Position)

  /** Everything the arena sends out: broadcasts, and requests to the session. */
  datatype Effect =
    | Rpc(msg: Message)
    | ChangeMenu(menu: Menu)
    | QuitToMainMenu
    | ClearGame(clear: bool)

  /** What `Init` fixes for the whole round: the mode and the two spawn pools. */
  datatype Setup = Setup(singlePlayer: bool, actorSpawnPoints: seq<Position>, itemSpawnPoints: seq<Position>)

  /** The round clock: `roundTimeRemaining`, `secondCounter`, `roundTimerActive`, `scorePresented`. */
  datatype Clock = Clock(roundTimeRemaining: int, secondCounter: nat, roundTimerActive: bool, scorePresented: bool)

  /**
    Who takes part: the `actors` list, the `scores` dictionary from world id
    to kills, and `playerWorldId`, the local player's world id.
   */
  datatype Roster = Roster(actors: seq<Actor>, scores: Scores, playerWorldId: int)

  /** The fields of `Arena`, with `effects` everything sent so far. */
  datatype ArenaState = ArenaState(
    setup: Setup,
    clock: Clock,
    roster: Roster,
    items: seq<Item>,
    nextId: int,
    effects: seq<Effect>)

  function Emit(s: ArenaState, e: Effect): ArenaState {
    s.(effects := s.effects + [e])
  }

  /** `r`'s outbox continues `s`'s: nothing already sent is withdrawn. */
  predicate Extends(s: ArenaState, r: ArenaState) {
    |s.effects| <= |r.effects| && r.effects[..|s.effects|] == s.effects
  }

  function NewEffects(s: ArenaState, r: ArenaState): seq<Effect>
    requires Extends(s, r)
  {
    r.effects[|s.effects|..]
  }

  /** Every actor's world id has a score entry: it is registered before the
      actor spawns. */
  predicate RosterValid(ro: Roster) {
    forall i :: 0 <= i < |ro.actors| ==> ro.actors[i].worldId in ro.scores
  }

  /** The arena's invariant: a valid roster and a 32-bit id counter. */
  predicate Valid(s: ArenaState) {
    RosterValid(s.roster) && IsInt32(s.nextId)
  }

  /** Appending actors keeps the roster valid when the old scores stay and
      every new actor's id has a score. */
  lemma AppendKeepsValid(ro: Roster, r: Roster, added: seq<Actor>)
    requires RosterValid(ro) && r.actors == ro.actors + added
    requires forall k :: k in ro.scores ==> k in r.scores
    requires forall i :: 0 <= i < |added| ==> added[i].worldId in r.scores
    ensures RosterValid(r)
  {
    forall i | 0 <= i < |r.actors|
      ensures r.actors[i].worldId in r.scores
    {
      if i < |ro.actors| {
        assert r.actors[i] == ro.actors[i];
      } else {
        assert r.actors[i] == added[i - |ro.actors|];
      }
    }
  }
}
